=== FILE: README.md ===
# Pixel core of a medical image processor and a Swing image editor

This project models, in Dafny, the deterministic pixel core of two image
tools.

- `python-software/medical-image-processor.py` is a PyQt application. Its
  `apply_processing` always starts from a copy of the loaded image. It then
  runs five stages in a fixed order: brightness/contrast/gamma, spatial
  filter, segmentation, morphology, enhancement. Each stage is skipped when
  its mode is "None" or its slider is neutral. `reset_image` puts the
  original back. `select_roi` crops a rectangle of the processed image.
  `extract_features` reports the area and mean intensity of the region's
  foreground, among other features.
- `java-software/AdvancedImageProcessor.java` is a Swing editor. Its filter
  buttons work on the current processed image: the grayscale, sepia and
  invert buttons rewrite it pixel by pixel, and the three convolution
  buttons replace it with a new filtered image. Its sliders rebuild the
  processed image from the loaded one.

Buffers are immutable nested sequences: rows, then pixels, then channel
samples in 0..255 (`Buffers`). A two-dimensional (grey) array is a buffer
with one sample per pixel. The stages are pure functions over buffers. The
application state is a record holding the original, the processed buffer,
the widget values and the selected region (`Pipeline.Session`). The Java
editor is either empty or holds a loaded and a processed image
(`ColorFilters.Editor`).

Some operations are passed in as functions (`Pipeline.Library`,
`ColorFilters.Kit`) instead of being written out. There are three reasons.
- Their algorithm lives inside OpenCV or Java2D: the blurs, Canny, the
  adaptive and Otsu thresholds, watershed, histogram equalisation, CLAHE,
  the colour-to-grey conversion and the Java convolutions.
- The code spells out their formula, but it is floating-point arithmetic
  whose rounding the model does not follow: contrast scaling, the gamma
  table (`((i / 255.0) ** inv_gamma) * 255` truncated by `astype(uint8)`),
  unsharp masking, the Java grey and sepia weighted sums, and the Java HSB
  adjustment.
- The code spells out its formula, but the formula relies on 8-bit
  wrap-around and can divide by zero: contrast stretching.

The model fixes which of these runs, on what input, and in what order.
`Pipeline.WellBehaved` and `ColorFilters.KitWellBehaved` state only the
shape and range guarantees those operations give.

Modules: `Wrappers` (option type), `Buffers` (buffer shape and sample
range), `Photometric` (saturating brightness), `Kernels` (kernel-size
correction),
`Segmentation` (grey conversion, broadcast, global threshold), `Morphology`
(square-element erosion, dilation, opening, closing), `Pipeline` (stages,
driver, session), `Region` (crop, area, mean intensity), `ColorFilters`
(the Java filters and editor).

Three facts about the code shape the model:
- Watershed always yields three channels, even for a grey input, because the
  code paints the boundaries on a colour copy. So the channel count is kept
  by every pipeline run except one that uses watershed.
- `reset_image` also resets every widget to its default.
- The gamma table truncates (`astype(uint8)`) instead of rounding.

## Model

| member | source | states |
|---|---|---|
| Photometric.Brightness | python-software/medical-image-processor.py:524-529 | every sample of the buffer becomes `clamp(sample + brightness, 0, 255)`, the result stays in 0..255 and keeps its shape |
| Photometric.WhiteSaturates | python-software/medical-image-processor.py:526-527 | an all-255 buffer is unchanged by any positive brightness |
| Photometric.BlackSaturates | python-software/medical-image-processor.py:528-529 | an all-0 buffer is unchanged by any negative brightness |
| Photometric.BrightnessUndo | python-software/medical-image-processor.py:524-529 | brightening by d and then darkening by d restores every sample that did not saturate |
| Photometric.BrightnessMonotone | python-software/medical-image-processor.py:524-529 | for any two samples of a buffer, in any pixels and channels, brightness keeps their order |
| Kernels.OddKernel | python-software/medical-image-processor.py:545-547 | the corrected kernel size is odd and is k or k + 1, so it is the least odd size not below k |
| Kernels.OddKernelPairs | python-software/medical-image-processor.py:666-668 | sizes 2m and 2m + 1 both become 2m + 1, and an odd size is kept |
| Kernels.OddKernelIdempotent | python-software/medical-image-processor.py:545-547 | correcting an already corrected size changes nothing |
| Segmentation.ToGray | python-software/medical-image-processor.py:589-593 | the grey plane has the buffer's height and width; it is the sample itself for a single-channel buffer and the per-pixel luma otherwise |
| Segmentation.FromGray | python-software/medical-image-processor.py:598-602 | every channel of each pixel carries the plane's value at that pixel |
| Segmentation.Binarize | python-software/medical-image-processor.py:596 | the plane keeps its shape, every value becomes 0 or 255, and it is 255 exactly where the input is above t |
| Segmentation.Threshold | python-software/medical-image-processor.py:595-602 | the output has the input's shape, every sample is 0 or 255, a sample is 255 exactly where the grey level exceeds t, and all channels of a pixel agree |
| Segmentation.ThresholdIsImage | python-software/medical-image-processor.py:595-602 | thresholding an 8-bit image yields an 8-bit image of the same dimensions |
| Segmentation.ThresholdIdempotent | python-software/medical-image-processor.py:595-602 | on a single-channel buffer, thresholding the result again at any level 0..254 changes nothing |
| Morphology.Erode | python-software/medical-image-processor.py:673-674 | each sample becomes the least sample of its channel over the in-image part of the (2r+1)-square window around it, and that least value is attained there |
| Morphology.Dilate | python-software/medical-image-processor.py:675-676 | each sample becomes the greatest sample of its channel over the in-image part of the window, and that value is attained there |
| Morphology.Open | python-software/medical-image-processor.py:677-678 | opening keeps the shape; each sample is the greatest sample of the erosion over the window around it (dilation of the erosion), and it lies between the erosion and the original |
| Morphology.Close | python-software/medical-image-processor.py:679-680 | closing keeps the shape; each sample is the least sample of the dilation over the window around it (erosion of the dilation), and it lies between the original and the dilation |
| Morphology.ErodeDilateBracket | python-software/medical-image-processor.py:673-676 | erosion ≤ original ≤ dilation, sample by sample |
| Morphology.OpenBelow | python-software/medical-image-processor.py:677-678 | opening (erosion, then dilation) ≤ original, sample by sample |
| Morphology.CloseAbove | python-software/medical-image-processor.py:679-680 | original ≤ closing (dilation, then erosion), sample by sample |
| Morphology.RadiusZeroIdentity | python-software/medical-image-processor.py:670-680 | a 1×1 element leaves the buffer unchanged under all four operations |
| Morphology.MorphologyInRange | python-software/medical-image-processor.py:670-680 | all four operations map 8-bit images to 8-bit images |
| Pipeline.AdjustBrightnessContrast | python-software/medical-image-processor.py:519-539 | the result is an image of the input's shape; with brightness 0, contrast slider 0 and gamma slider 100 it is the input; on a single-channel buffer with neutral contrast and gamma every sample is `clamp(sample + brightness)` |
| Pipeline.ViaGray | python-software/medical-image-processor.py:566-580 | a plane operation runs on the grey plane of the buffer (the sample itself, or the luma of a colour pixel), and its result is stored back as an image of the buffer's shape with every channel of a pixel carrying the plane's value |
| Pipeline.ApplyFilters | python-software/medical-image-processor.py:541-580 | every filter keeps the image shape, and "None" is the identity; the Gaussian, median and bilateral filters get the corrected odd size `OddKernel(k)`, "Sharpen" runs the sharpening kernel, and "Edge Detection" is Canny on the grey plane stored back with all channels equal (`ViaGray`) |
| Pipeline.ApplySegmentation | python-software/medical-image-processor.py:582-657 | height and width are kept, the channel count is kept except by watershed, which yields three channels, and "None" is the identity; "Threshold" is exactly `Segmentation.Threshold` at the slider's level, the adaptive and Otsu modes run the library operation on the grey plane, and watershed runs the library watershed |
| Pipeline.ApplyMorphology | python-software/medical-image-processor.py:659-680 | the result is an image of the input's shape, and "None" is the identity; erosion, dilation, opening and closing are exactly the `Morphology` operations at radius (OddKernel(k) − 1) / 2 |
| Pipeline.ApplyEnhancement | python-software/medical-image-processor.py:682-732 | the result is an image of the input's shape, and "None" is the identity; histogram equalisation, CLAHE, contrast stretching and unsharp masking each run their own library operation |
| Pipeline.Process | python-software/medical-image-processor.py:503-513 | the five stages applied to the original give an image of the original's height and width, with its channel count unless watershed ran |
| Pipeline.ThresholdOnlyIsBinary | python-software/medical-image-processor.py:503-513 | with only "Threshold" active, every processed sample is 0 or 255, and it is 255 exactly where the original's grey level exceeds the threshold |
| Pipeline.BrightnessThenThreshold | python-software/medical-image-processor.py:503-513 | brightness runs before segmentation: on a single-channel image with only brightness and "Threshold" active, a sample ends up 255 exactly when `clamp(original + brightness)` exceeds the threshold, and 0 otherwise |
| Pipeline.EdgesThenThreshold | python-software/medical-image-processor.py:505-509 | the filter runs before segmentation: with only "Edge Detection" and "Threshold" active, every sample is 0 or 255, and 255 exactly where the grey level of the edge map exceeds the threshold |
| Pipeline.ErodeThenEqualize | python-software/medical-image-processor.py:509-511 | morphology runs before enhancement: with only "Erosion" and histogram equalisation active, the result is the equalisation of the eroded original |
| Pipeline.OpeningOnlyBelow | python-software/medical-image-processor.py:503-513 | with only "Opening" active the result is at most the original sample by sample, and with only "Closing" active at least |
| Pipeline.NeutralIsIdentity | python-software/medical-image-processor.py:503-513 | with brightness 0, contrast 0, gamma 100 and every mode "None", the pipeline returns the original unchanged |
| Pipeline.EvenFilterKernelMatchesNextOdd | python-software/medical-image-processor.py:541-558 | a filter kernel size of 2m gives exactly the result of 2m + 1 |
| Pipeline.EvenMorphKernelMatchesNextOdd | python-software/medical-image-processor.py:659-680 | a morphology kernel size of 2m gives exactly the result of 2m + 1 |
| Pipeline.Load | python-software/medical-image-processor.py:452-466 | after loading, the processed buffer equals the loaded image, the widgets hold their defaults, and the old region is kept |
| Pipeline.ReadFailed | python-software/medical-image-processor.py:446-450 | when the file cannot be read, the original becomes `None` while the processed buffer, widgets and region keep their values |
| Pipeline.ApplyProcessing | python-software/medical-image-processor.py:499-513 | without an image nothing changes; otherwise only the processed buffer changes, to the pipeline's result on the original; the original, widgets and region are untouched |
| Pipeline.ResetImage | python-software/medical-image-processor.py:734-741 | without an image nothing changes; otherwise the processed buffer equals the original exactly and the widgets return to their defaults |
| Pipeline.ApplyIdempotent | python-software/medical-image-processor.py:503-504 | applying the processing twice gives the same state as applying it once |
| Pipeline.ApplyIgnoresProcessed | python-software/medical-image-processor.py:503-504 | what the processed buffer held before an application has no effect on its result |
| Pipeline.ResetThenApplyIsOriginal | python-software/medical-image-processor.py:482-493 | applying right after a reset yields the original exactly, since the default widget values are neutral |
| Region.Slice | python-software/medical-image-processor.py:757 | slicing `s[lo:lo+n]` gives at most n elements, exactly n when in bounds, up to the end when it overhangs, and element k is `s[lo + k]` |
| Region.Crop | python-software/medical-image-processor.py:757 | cell (i, j) of the crop is cell (y + i, x + j) of the buffer; the crop has as many rows as the slice of rows y .. y + height − 1 that exists, each as long as the part of columns x .. x + width − 1 that exists; inside the buffer it is height × width |
| Region.CropIsImage | python-software/medical-image-processor.py:756-757 | a non-empty rectangle inside an image crops to an image of the rectangle's dimensions |
| Region.SelectRoi | python-software/medical-image-processor.py:743-757 | without a processed image, or for a selection without positive width and height, nothing changes; otherwise the region becomes the crop of the processed buffer; neither buffer is touched |
| Region.AreaIsForegroundCount | python-software/medical-image-processor.py:780-782 | the area equals the number of coordinates (i, j) whose mask value is positive |
| Region.AreaBounds | python-software/medical-image-processor.py:780-782 | the area is at most h × w; it is 0 exactly when no cell is foreground and h × w exactly when every cell is |
| Region.MaskedMembers | python-software/medical-image-processor.py:795-797 | the masked values are one per foreground cell, and are exactly the grey levels of foreground cells |
| Region.Mean | python-software/medical-image-processor.py:796-798 | the mean of a non-empty sequence times its length is its sum |
| Region.MeanBounds | python-software/medical-image-processor.py:796-798 | a mean of values in [lo, hi] lies in [lo, hi] |
| Region.ExtractFeatures | python-software/medical-image-processor.py:763-800 | a feature is present exactly when requested; the area is the number of foreground cells, at most the cell count, 0 exactly without foreground and the cell count exactly when all cells are foreground; the mean intensity is 0 without foreground and otherwise the mean of the grey levels under the foreground, so it lies between two of them |
| Region.ExtractSessionFeatures | python-software/medical-image-processor.py:763-766 | features are computed exactly when a region has been selected, and are then those of that region |
| ColorFilters.Invert | java-software/AdvancedImageProcessor.java:277-287 | each channel plus its inverted channel is 255, so valid pixels stay valid |
| ColorFilters.InvertInvolution | java-software/AdvancedImageProcessor.java:277-287 | inverting twice restores the image exactly |
| ColorFilters.InvertKeepsGray | java-software/AdvancedImageProcessor.java:277-287 | inverting an image of grey pixels gives grey pixels |
| ColorFilters.Grayscale | java-software/AdvancedImageProcessor.java:249-258 | every output pixel has red = green = blue, equal to the mix of the input pixel, and within 0..255 |
| ColorFilters.Sepia | java-software/AdvancedImageProcessor.java:260-275 | every channel is within 0..255; it is 255 exactly when its mix reaches 255, and equals the mix otherwise |
| ColorFilters.FilterImage | java-software/AdvancedImageProcessor.java:221-288 | "Blur", "Sharpen" and "Edge Detection" run the convolution with their 3×3 kernels, "Grayscale", "Sepia" and "Invert" are exactly `Grayscale`, `Sepia` and `Invert`, every filter keeps the image valid and its dimensions, and a name the switch does not recognise leaves the image unchanged |
| ColorFilters.ApplyFilter | java-software/AdvancedImageProcessor.java:218-291 | with no image loaded, or for an unknown filter name, the editor is unchanged; otherwise the loaded image is never changed |
| ColorFilters.ApplyImageProcessing | java-software/AdvancedImageProcessor.java:180-216 | with no image loaded nothing changes; otherwise each processed pixel is the adjustment of the loaded image's pixel, and the loaded image is unchanged |
| ColorFilters.FiltersCompose | java-software/AdvancedImageProcessor.java:250-255 | a second filter works on the result of the first |
| ColorFilters.InvertTwiceRestores | java-software/AdvancedImageProcessor.java:277-287 | pressing "Invert" twice returns the editor to its earlier state |
| ColorFilters.AdjustmentDiscardsFilters | java-software/AdvancedImageProcessor.java:180-216 | after a slider change the result no longer depends on the filters applied before it |

## Left out

- User interface and I/O: the widgets, image display and scaling, the histogram, file dialogs, decoding and saving. This includes the DICOM normalisation, which uses float division, and the Java `openImage` redraw. Loading is modelled only as its effect on the state: a successful read (`Pipeline.Load`) and a failed `cv2.imread` (`Pipeline.ReadFailed`).
- DICOM read failures (missing `pydicom`, unreadable file): the handler returns before anything observable is set, except when the failure comes after `pixel_array` was stored; that partial case is not modelled.
- Floating-point arithmetic whose rounding the model does not follow. This covers contrast via `convertScaleAbs`, the gamma lookup table and the Java HSB adjustment. The code gives their formulas, but each is a parameter here. The model fixes only when it runs: contrast when the slider is not 0, since `s / 100 + 1.0` is exactly 1.0 only for s = 0; gamma when the slider is not 100.
- Photometric.Brightness: modelled exactly on single-channel buffers only. On a colour buffer `cv2.add(img, np.array([b]))` may change the first channel alone, and this depends on OpenCV broadcasting rules outside the application code, so the colour case is a library parameter (`colorBrightness`).
- Library algorithms whose internals and tie-breaking belong to OpenCV and Java2D, not to the application code: Gaussian, median and bilateral blurs, the 3×3 sharpening `filter2D`, Canny, the adaptive and Otsu thresholds, watershed with its distance transform and connected components, histogram equalisation, CLAHE, and the Java `ConvolveOp`. Unsharp masking (`addWeighted` with 1.5 and −0.5) is float arithmetic with saturation and is a parameter too. The model fixes only their dispatch, their inputs, the grey conversion and broadcast around them, and their shape guarantees (`Pipeline.WellBehaved`).
- Contrast stretching: the code gives the formula, but it computes with 8-bit wrap-around and divides by zero on a flat channel. It is a parameter.
- Segmentation.ToGray: the colour-to-grey weights are a parameter (`luma`), so the model does not state the 0.299/0.587/0.114 weighting.
- ColorFilters.Grayscale: does not state the 0.299/0.587/0.114 weights the code gives, or their double-precision truncation. The weighted sum is a parameter known only to map 0..255 into 0..255.
- ColorFilters.Sepia: does not state the sepia coefficients the code gives. Each weighted sum is a parameter known only to be non-negative, so only the `min(255, …)` cap and the range are stated.
- Region.ExtractFeatures: the foreground mask is an input instead of Otsu's threshold. The perimeter (contours and `arcLength`) and the texture features (co-occurrence matrix) are not modelled. The mean is an exact rational, not a double.
- Interactive `cv2.selectROI` and `imshow`: the selection rectangle is an input with non-negative coordinates, as `selectROI` reports it. Negative-index wrap-around of slicing is therefore not modelled.
- Widget ranges: `Pipeline.Process` requires the slider values within the ranges the widgets allow (`Pipeline.ValidControls`).

=== FILE: buffers.dfy ===
/** Raster buffers of 8-bit samples, the data every pipeline stage consumes
    and produces.

    A buffer is a sequence of rows, each row a sequence of pixels, each pixel
    a sequence of channel samples. A single-channel (two-dimensional) image is
    a buffer whose pixels hold one sample; a colour image holds three, in
    blue-green-red order. A `Plane` is a two-dimensional grid of values: a
    grey-level image or a binary mask.
 */
module Buffers {

  type Pixel = seq<int>
  type Buffer = seq<seq<Pixel>>
  type Plane = seq<seq<int>>

  /** Smallest and largest value an 8-bit unsigned sample can hold. */
  const MinSample := 0
  const MaxSample := 255

  predicate InSampleRange(v: int) {
    MinSample <= v <= MaxSample
  }

  /** `v` forced into the sample range: the saturating cast of the image library. */
  function Clamp(v: int): (r: int)
    ensures InSampleRange(r)
    ensures InSampleRange(v) ==> r == v
    ensures v < MinSample ==> r == MinSample
    ensures v > MaxSample ==> r == MaxSample
  {
    if v < MinSample then MinSample else if v > MaxSample then MaxSample else v
  }

  /** `b` has exactly `h` rows of `w` pixels of `c` samples each. */
  ghost predicate Shaped(b: Buffer, h: int, w: int, c: int) {
    && |b| == h
    && (forall i :: 0 <= i < h ==> |b[i]| == w)
    && (forall i, j :: 0 <= i < h && 0 <= j < w ==> |b[i][j]| == c)
  }

  /** `p` has exactly `h` rows of `w` values each. */
  ghost predicate PlaneShaped(p: Plane, h: int, w: int) {
    && |p| == h
    && (forall i :: 0 <= i < h ==> |p[i]| == w)
  }

  function Height(b: Buffer): nat {
    |b|
  }

  function Width(b: Buffer): nat {
    if |b| == 0 then 0 else |b[0]|
  }

  function Channels(b: Buffer): nat {
    if |b| == 0 || |b[0]| == 0 then 0 else |b[0][0]|
  }

  /** Non-empty and rectangular: every row as wide as the first, every pixel
      with as many samples as the first. */
  ghost predicate Wellformed(b: Buffer) {
    && Height(b) > 0
    && Width(b) > 0
    && Channels(b) > 0
    && Shaped(b, Height(b), Width(b), Channels(b))
  }

  ghost predicate SamplesInRange(b: Buffer) {
    forall i, j, c :: 0 <= i < |b| && 0 <= j < |b[i]| && 0 <= c < |b[i][j]| ==> InSampleRange(b[i][j][c])
  }

  ghost predicate PlaneInRange(p: Plane) {
    forall i, j :: 0 <= i < |p| && 0 <= j < |p[i]| ==> InSampleRange(p[i][j])
  }

  /** The buffer contract of the image library: non-empty, rectangular,
      one or three channels, 8-bit samples. */
  ghost predicate IsImage(b: Buffer) {
    && Wellformed(b)
    && (Channels(b) == 1 || Channels(b) == 3)
    && SamplesInRange(b)
  }

  /** Two buffers have identical dimensions. */
  ghost predicate SameShape(a: Buffer, b: Buffer) {
    Shaped(b, Height(a), Width(a), Channels(a))
  }

  /** Applies `f` to every sample. */
  function MapSamples(b: Buffer, f: int -> int): (r: Buffer)
    ensures |r| == |b|
    ensures forall i :: 0 <= i < |b| ==> |r[i]| == |b[i]|
    ensures forall i, j :: 0 <= i < |b| && 0 <= j < |b[i]| ==> |r[i][j]| == |b[i][j]|
    ensures forall i, j, c :: 0 <= i < |b| && 0 <= j < |b[i]| && 0 <= c < |b[i][j]| ==> r[i][j][c] == f(b[i][j][c])
  {
    seq(|b|, i requires 0 <= i < |b| =>
      seq(|b[i]|, j requires 0 <= j < |b[i]| =>
        seq(|b[i][j]|, c requires 0 <= c < |b[i][j]| => f(b[i][j][c]))))
  }
}

=== FILE: colorfilters.dfy ===
/** The filter buttons and adjustment sliders of
    java-software/AdvancedImageProcessor.java.

    An image is a grid of RGB pixels indexed `[y][x]`. The editor holds the
    loaded image and the processed image the filters work on. The weighted
    sums of the grayscale and sepia filters are computed in double precision
    and truncated by the source; they stay parameters (`Mix`), and the model
    fixes how their results are clamped and stored. The 3x3 convolutions and
    the hue-saturation-brightness adjustment are parameters too.
 */
module ColorFilters {
  import Buffers

  datatype Rgb = Rgb(red: int, green: int, blue: int)

  type Image = seq<seq<Rgb>>

  predicate ValidRgb(p: Rgb) {
    Buffers.InSampleRange(p.red) && Buffers.InSampleRange(p.green) && Buffers.InSampleRange(p.blue)
  }

  ghost predicate ValidImage(img: Image) {
    forall y, x :: 0 <= y < |img| && 0 <= x < |img[y]| ==> ValidRgb(img[y][x])
  }

  /** Two images have the same rows of the same lengths. */
  ghost predicate SameDims(a: Image, b: Image) {
    |a| == |b| && forall y :: 0 <= y < |a| ==> |a[y]| == |b[y]|
  }

  /** A pixel whose three channels are equal. */
  predicate IsGray(p: Rgb) {
    p.red == p.green == p.blue
  }

  /** An integer-truncated weighted sum of red, green and blue. */
  type Mix = (int, int, int) -> int

  /** The mix maps 8-bit channels into the 8-bit range; the grayscale
      weights sum to one, so `new Color(gray, gray, gray)` never rejects its
      argument. */
  ghost predicate MixWithin(mix: Mix) {
    forall r, g, b {:trigger mix(r, g, b)} :: Buffers.InSampleRange(r) && Buffers.InSampleRange(g) && Buffers.InSampleRange(b) ==>
      Buffers.InSampleRange(mix(r, g, b))
  }

  /** The mix of 8-bit channels is never negative: the sepia weights are
      all non-negative. */
  ghost predicate MixNonNegative(mix: Mix) {
    forall r, g, b {:trigger mix(r, g, b)} :: Buffers.InSampleRange(r) && Buffers.InSampleRange(g) && Buffers.InSampleRange(b) ==>
      mix(r, g, b) >= 0
  }

  /** Applies `f` to every pixel. */
  function MapImage(img: Image, f: Rgb -> Rgb): (r: Image)
    ensures SameDims(img, r)
    ensures forall y, x :: 0 <= y < |img| && 0 <= x < |img[y]| ==> r[y][x] == f(img[y][x])
  {
    seq(|img|, y requires 0 <= y < |img| => seq(|img[y]|, x requires 0 <= x < |img[y]| => f(img[y][x])))
  }

  function InvertPixel(p: Rgb): Rgb {
    Rgb(255 - p.red, 255 - p.green, 255 - p.blue)
  }

  /** The "Invert" filter: each channel `c` becomes `255 - c`. Channels stay
      in range, and a channel and its image sum to white. */
  function Invert(img: Image): (r: Image)
    ensures SameDims(img, r)
    ensures ValidImage(img) ==> ValidImage(r)
    ensures forall y, x :: 0 <= y < |img| && 0 <= x < |img[y]| ==>
              r[y][x].red + img[y][x].red == 255 && r[y][x].green + img[y][x].green == 255 && r[y][x].blue + img[y][x].blue == 255
  {
    MapImage(img, InvertPixel)
  }

  /** Inverting twice restores the image exactly. */
  lemma InvertInvolution(img: Image)
    ensures Invert(Invert(img)) == img
  {
    var twice := Invert(Invert(img));
    forall y | 0 <= y < |img|
      ensures twice[y] == img[y]
    {
      forall x | 0 <= x < |img[y]|
        ensures twice[y][x] == img[y][x]
      {
      }
    }
  }

  /** Inversion maps grey pixels to grey pixels. */
  lemma InvertKeepsGray(img: Image)
    requires forall y, x :: 0 <= y < |img| && 0 <= x < |img[y]| ==> IsGray(img[y][x])
    ensures forall y, x :: 0 <= y < |Invert(img)| && 0 <= x < |Invert(img)[y]| ==> IsGray(Invert(img)[y][x])
  {
  }

  /** The "Grayscale" filter: every pixel becomes the grey pixel whose
      three channels all equal the mix of its red, green and blue. */
  function Grayscale(img: Image, mix: Mix): (r: Image)
    requires ValidImage(img) && MixWithin(mix)
    ensures SameDims(img, r) && ValidImage(r)
    ensures forall y, x :: 0 <= y < |img| && 0 <= x < |img[y]| ==>
              IsGray(r[y][x]) && r[y][x].red == mix(img[y][x].red, img[y][x].green, img[y][x].blue)
  {
    MapImage(img, (p: Rgb) => var gray := mix(p.red, p.green, p.blue); Rgb(gray, gray, gray))
  }

  /** `Math.min(255, v)`. */
  function Cap(v: int): int {
    if v < 255 then v else 255
  }

  /** The "Sepia" filter: each output channel is its own mix of the input
      pixel, capped at 255. Every channel is in range; a channel is 255
      exactly when its mix reaches 255, and equals the mix otherwise. */
  function Sepia(img: Image, mixRed: Mix, mixGreen: Mix, mixBlue: Mix): (r: Image)
    requires ValidImage(img) && MixNonNegative(mixRed) && MixNonNegative(mixGreen) && MixNonNegative(mixBlue)
    ensures SameDims(img, r) && ValidImage(r)
    ensures forall y, x :: 0 <= y < |img| && 0 <= x < |img[y]| ==>
              var p := img[y][x];
              && (r[y][x].red == 255 <==> mixRed(p.red, p.green, p.blue) >= 255)
              && (r[y][x].green == 255 <==> mixGreen(p.red, p.green, p.blue) >= 255)
              && (r[y][x].blue == 255 <==> mixBlue(p.red, p.green, p.blue) >= 255)
              && (mixRed(p.red, p.green, p.blue) < 255 ==> r[y][x].red == mixRed(p.red, p.green, p.blue))
              && (mixGreen(p.red, p.green, p.blue) < 255 ==> r[y][x].green == mixGreen(p.red, p.green, p.blue))
              && (mixBlue(p.red, p.green, p.blue) < 255 ==> r[y][x].blue == mixBlue(p.red, p.green, p.blue))
  {
    MapImage(img, (p: Rgb) => Rgb(Cap(mixRed(p.red, p.green, p.blue)), Cap(mixGreen(p.red, p.green, p.blue)), Cap(mixBlue(p.red, p.green, p.blue))))
  }

  /** The operations of the editor whose arithmetic the model leaves open:
      the four weighted sums, the 3x3 convolution (`ConvolveOp` with edges
      left as they are) and the per-pixel slider adjustment through
      hue-saturation-brightness space. */
  datatype Kit = Kit(
    grayMix: Mix,
    sepiaRed: Mix,
    sepiaGreen: Mix,
    sepiaBlue: Mix,
    convolve: (Image, seq<real>) -> Image,
    adjust: (Rgb, int, int, int) -> Rgb)

  ghost predicate KitWellBehaved(kit: Kit) {
    && MixWithin(kit.grayMix)
    && MixNonNegative(kit.sepiaRed)
    && MixNonNegative(kit.sepiaGreen)
    && MixNonNegative(kit.sepiaBlue)
    && (forall img, k {:trigger kit.convolve(img, k)} :: ValidImage(img) ==>
          ValidImage(kit.convolve(img, k)) && SameDims(img, kit.convolve(img, k)))
    && (forall p, b, c, s {:trigger kit.adjust(p, b, c, s)} :: ValidRgb(p) ==> ValidRgb(kit.adjust(p, b, c, s)))
  }

  /** The kernels of the "Blur", "Sharpen" and "Edge Detection" buttons. */
  const BlurKernel: seq<real> := [1.0/9.0, 1.0/9.0, 1.0/9.0, 1.0/9.0, 1.0/9.0, 1.0/9.0, 1.0/9.0, 1.0/9.0, 1.0/9.0]
  const SharpenKernel: seq<real> := [0.0, -1.0, 0.0, -1.0, 5.0, -1.0, 0.0, -1.0, 0.0]
  const EdgeKernel: seq<real> := [-1.0, -1.0, -1.0, -1.0, 8.0, -1.0, -1.0, -1.0, -1.0]

  /** The names the `switch` of `applyFilter` recognises. */
  predicate KnownFilter(name: string) {
    name in {"Blur", "Sharpen", "Edge Detection", "Grayscale", "Sepia", "Invert"}
  }

  /** The body of the `switch` in `applyFilter`, on the processed image. */
  function FilterImage(img: Image, name: string, kit: Kit): (r: Image)
    requires ValidImage(img) && KitWellBehaved(kit)
    ensures ValidImage(r) && SameDims(img, r)
    ensures name == "Blur" ==> r == kit.convolve(img, BlurKernel)
    ensures name == "Sharpen" ==> r == kit.convolve(img, SharpenKernel)
    ensures name == "Edge Detection" ==> r == kit.convolve(img, EdgeKernel)
    ensures name == "Grayscale" ==> r == Grayscale(img, kit.grayMix)
    ensures name == "Sepia" ==> r == Sepia(img, kit.sepiaRed, kit.sepiaGreen, kit.sepiaBlue)
    ensures name == "Invert" ==> r == Invert(img)
    ensures !KnownFilter(name) ==> r == img
  {
    if name == "Blur" then kit.convolve(img, BlurKernel)
    else if name == "Sharpen" then kit.convolve(img, SharpenKernel)
    else if name == "Edge Detection" then kit.convolve(img, EdgeKernel)
    else if name == "Grayscale" then Grayscale(img, kit.grayMix)
    else if name == "Sepia" then Sepia(img, kit.sepiaRed, kit.sepiaGreen, kit.sepiaBlue)
    else if name == "Invert" then Invert(img)
    else img
  }

  /** The editor state: nothing loaded (`originalImage == null`), or the
      loaded image and the processed image derived from it. */
  datatype Editor = NoImage | Loaded(original: Image, processed: Image)

  ghost predicate ValidEditor(e: Editor) {
    e.Loaded? ==> ValidImage(e.original) && ValidImage(e.processed) && SameDims(e.original, e.processed)
  }

  /** `applyFilter`: without an image nothing changes; otherwise the named
      filter rewrites the processed image and the loaded image stays as it
      is. An unknown name changes nothing. */
  function ApplyFilter(e: Editor, name: string, kit: Kit): (r: Editor)
    requires ValidEditor(e) && KitWellBehaved(kit)
    ensures ValidEditor(r)
    ensures e.NoImage? || !KnownFilter(name) ==> r == e
    ensures e.Loaded? ==> r.Loaded? && r.original == e.original
  {
    match e
    case NoImage => e
    case Loaded(o, p) => Loaded(o, FilterImage(p, name, kit))
  }

  /** `applyImageProcessing`: without an image nothing changes; otherwise
      the processed image is rebuilt pixel by pixel from the loaded image,
      whatever filters had been applied before. */
  function ApplyImageProcessing(e: Editor, brightness: int, contrast: int, saturation: int, kit: Kit): (r: Editor)
    requires ValidEditor(e) && KitWellBehaved(kit)
    ensures ValidEditor(r)
    ensures e.NoImage? ==> r == e
    ensures e.Loaded? ==> r.Loaded? && r.original == e.original
    ensures e.Loaded? ==> forall y, x :: 0 <= y < |e.original| && 0 <= x < |e.original[y]| ==>
              r.processed[y][x] == kit.adjust(e.original[y][x], brightness, contrast, saturation)
  {
    match e
    case NoImage => e
    case Loaded(o, _) => Loaded(o, MapImage(o, px => kit.adjust(px, brightness, contrast, saturation)))
  }

  /** Filters work on the current processed image, so two filters compose. */
  lemma FiltersCompose(o: Image, p: Image, first: string, second: string, kit: Kit)
    requires ValidEditor(Loaded(o, p)) && KitWellBehaved(kit)
    ensures ApplyFilter(ApplyFilter(Loaded(o, p), first, kit), second, kit) ==
            Loaded(o, FilterImage(FilterImage(p, first, kit), second, kit))
  {
  }

  /** Pressing "Invert" twice brings the editor back to where it was. */
  lemma InvertTwiceRestores(e: Editor, kit: Kit)
    requires ValidEditor(e) && KitWellBehaved(kit)
    ensures ApplyFilter(ApplyFilter(e, "Invert", kit), "Invert", kit) == e
  {
    if e.Loaded? {
      InvertInvolution(e.processed);
    }
  }

  /** Moving a slider discards earlier filters: the result depends only on
      the loaded image and the slider values. */
  lemma AdjustmentDiscardsFilters(e: Editor, name: string, brightness: int, contrast: int, saturation: int, kit: Kit)
    requires ValidEditor(e) && KitWellBehaved(kit)
    ensures ApplyImageProcessing(ApplyFilter(e, name, kit), brightness, contrast, saturation, kit) ==
            ApplyImageProcessing(e, brightness, contrast, saturation, kit)
  {
  }
}

=== FILE: kernels.dfy ===
/** The kernel-size correction shared by `apply_filters` and
    `apply_morphology` (python-software/medical-image-processor.py): the
    image library wants odd kernel sides, so an even request is bumped by
    one.
 */
module Kernels {

  /** The corrected kernel size: the least odd number not below `k`. */
  function OddKernel(k: int): (r: int)
    ensures r % 2 == 1
    ensures k <= r <= k + 1
  {
    if k % 2 == 0 then k + 1 else k
  }

  /** Sizes `2m` and `2m + 1` select the same kernel; an odd size is kept. */
  lemma OddKernelPairs(m: int)
    ensures OddKernel(2 * m) == OddKernel(2 * m + 1) == 2 * m + 1
  {
  }

  /** Correcting twice is correcting once. */
  lemma OddKernelIdempotent(k: int)
    ensures OddKernel(OddKernel(k)) == OddKernel(k)
  {
  }
}

=== FILE: morphology.dfy ===
/** Erosion and dilation with a square all-ones structuring element, and
    the opening and closing built from them (`apply_morphology` in
    python-software/medical-image-processor.py).

    The element is anchored at its centre. Cells of the window that fall
    outside the image are ignored, which is what the image library's default
    border does for erosion (border value +infinity) and dilation (border
    value -infinity). Every channel is processed independently.
 */
module Morphology {
  import opened Buffers

  /** Which extreme a window reduces to: erosion takes the least value,
      dilation the greatest. */
  datatype Extreme = Least | Greatest

  /** `m` is on the `e` side of `v`. */
  predicate Beyond(e: Extreme, m: int, v: int) {
    if e == Least then m <= v else m >= v
  }

  function Pick(e: Extreme, a: int, b: int): (m: int)
    ensures Beyond(e, m, a) && Beyond(e, m, b)
    ensures m == a || m == b
  {
    if Beyond(e, a, b) then a else b
  }

  /** First row (or column) of the window of radius `r` around `i`, clipped
      to the image. */
  function Lo(i: int, r: nat): int {
    if i - r < 0 then 0 else i - r
  }

  /** One past the last row (or column) of that window, clipped to an
      extent `n`. */
  function Hi(i: int, r: nat, n: int): int {
    if i + r + 1 > n then n else i + r + 1
  }

  /** Cell (y, x) of an `h` by `w` image lies in the window of radius `r`
      around (i, j). */
  predicate InWindow(h: int, w: int, r: nat, i: int, j: int, y: int, x: int) {
    && 0 <= y < h && 0 <= x < w
    && i - r <= y <= i + r
    && j - r <= x <= j + r
  }

  /** `v` is the `e`-extreme of channel `c` over the window of radius `r`
      around (i, j): on the `e` side of every in-window sample, and equal
      to one of them. */
  ghost predicate IsWindowExtreme(b: Buffer, e: Extreme, r: nat, i: int, j: int, c: int, v: int)
    requires Wellformed(b) && 0 <= c < Channels(b)
  {
    && (forall y, x :: InWindow(Height(b), Width(b), r, i, j, y, x) ==> Beyond(e, v, b[y][x][c]))
    && (exists y, x :: InWindow(Height(b), Width(b), r, i, j, y, x) && v == b[y][x][c])
  }

  /** The extreme of channel `c` over columns [x0, x1) of row `y`. */
  function RowExtreme(b: Buffer, e: Extreme, y: int, x0: int, x1: int, c: int): (m: int)
    requires Wellformed(b)
    requires 0 <= y < Height(b) && 0 <= x0 < x1 <= Width(b) && 0 <= c < Channels(b)
    ensures forall x :: x0 <= x < x1 ==> Beyond(e, m, b[y][x][c])
    ensures exists x :: x0 <= x < x1 && m == b[y][x][c]
    decreases x1 - x0
  {
    if x1 - x0 == 1 then
      b[y][x0][c]
    else
      var rest := RowExtreme(b, e, y, x0 + 1, x1, c);
      var x :| x0 + 1 <= x < x1 && rest == b[y][x][c];
      Pick(e, b[y][x0][c], rest)
  }

  /** The extreme of channel `c` over rows [y0, y1) and columns [x0, x1). */
  function RectExtreme(b: Buffer, e: Extreme, y0: int, y1: int, x0: int, x1: int, c: int): (m: int)
    requires Wellformed(b)
    requires 0 <= y0 < y1 <= Height(b) && 0 <= x0 < x1 <= Width(b) && 0 <= c < Channels(b)
    ensures forall y, x :: y0 <= y < y1 && x0 <= x < x1 ==> Beyond(e, m, b[y][x][c])
    ensures exists y, x :: y0 <= y < y1 && x0 <= x < x1 && m == b[y][x][c]
    decreases y1 - y0
  {
    var here := RowExtreme(b, e, y0, x0, x1, c);
    if y1 - y0 == 1 then
      here
    else
      var rest := RectExtreme(b, e, y0 + 1, y1, x0, x1, c);
      var y, x :| y0 + 1 <= y < y1 && x0 <= x < x1 && rest == b[y][x][c];
      var x' :| x0 <= x' < x1 && here == b[y0][x'][c];
      Pick(e, here, rest)
  }

  /** The extreme of channel `c` over the window of radius `r` around (i, j). */
  function WindowExtreme(b: Buffer, e: Extreme, r: nat, i: int, j: int, c: int): (m: int)
    requires Wellformed(b)
    requires 0 <= i < Height(b) && 0 <= j < Width(b) && 0 <= c < Channels(b)
    ensures IsWindowExtreme(b, e, r, i, j, c, m)
  {
    var m := RectExtreme(b, e, Lo(i, r), Hi(i, r, Height(b)), Lo(j, r), Hi(j, r, Width(b)), c);
    var y, x :| Lo(i, r) <= y < Hi(i, r, Height(b)) && Lo(j, r) <= x < Hi(j, r, Width(b)) && m == b[y][x][c];
    assert InWindow(Height(b), Width(b), r, i, j, y, x);
    m
  }

  /** Every sample replaced by the `e`-extreme of its window. */
  function Sweep(b: Buffer, e: Extreme, r: nat): (s: Buffer)
    requires Wellformed(b)
    ensures Shaped(s, Height(b), Width(b), Channels(b))
    ensures Wellformed(s) && Height(s) == Height(b) && Width(s) == Width(b) && Channels(s) == Channels(b)
    ensures forall i, j, c :: 0 <= i < Height(b) && 0 <= j < Width(b) && 0 <= c < Channels(b) ==>
              IsWindowExtreme(b, e, r, i, j, c, s[i][j][c])
  {
    var s := seq(Height(b), i requires 0 <= i < Height(b) =>
               seq(Width(b), j requires 0 <= j < Width(b) =>
                 seq(Channels(b), c requires 0 <= c < Channels(b) => WindowExtreme(b, e, r, i, j, c))));
    assert |s[0]| == Width(b) && |s[0][0]| == Channels(b);
    s
  }

  /** Erosion: each sample becomes the least sample of its channel in the
      (2r+1)-square window around it; that least value is attained. */
  function Erode(b: Buffer, r: nat): (s: Buffer)
    requires Wellformed(b)
    ensures Wellformed(s) && SameShape(b, s) && Height(s) == Height(b) && Width(s) == Width(b) && Channels(s) == Channels(b)
    ensures forall i, j, c :: 0 <= i < Height(b) && 0 <= j < Width(b) && 0 <= c < Channels(b) ==>
              IsWindowExtreme(b, Least, r, i, j, c, s[i][j][c])
  {
    Sweep(b, Least, r)
  }

  /** Dilation: each sample becomes the greatest sample of its channel in
      the (2r+1)-square window around it; that greatest value is attained. */
  function Dilate(b: Buffer, r: nat): (s: Buffer)
    requires Wellformed(b)
    ensures Wellformed(s) && SameShape(b, s) && Height(s) == Height(b) && Width(s) == Width(b) && Channels(s) == Channels(b)
    ensures forall i, j, c :: 0 <= i < Height(b) && 0 <= j < Width(b) && 0 <= c < Channels(b) ==>
              IsWindowExtreme(b, Greatest, r, i, j, c, s[i][j][c])
  {
    Sweep(b, Greatest, r)
  }

  /** Opening: erosion followed by dilation. Each sample is the greatest
      eroded sample over its window, and the result lies between the
      erosion and the original, sample by sample. */
  function Open(b: Buffer, r: nat): (s: Buffer)
    requires Wellformed(b)
    ensures Wellformed(s) && SameShape(b, s)
    ensures forall i, j, c :: 0 <= i < Height(b) && 0 <= j < Width(b) && 0 <= c < Channels(b) ==>
              IsWindowExtreme(Erode(b, r), Greatest, r, i, j, c, s[i][j][c])
    ensures Below(Erode(b, r), s) && Below(s, b)
  {
    ErodeDilateBracket(Erode(b, r), r);
    OpenBelow(b, r);
    Dilate(Erode(b, r), r)
  }

  /** Closing: dilation followed by erosion. Each sample is the least
      dilated sample over its window, and the result lies between the
      original and the dilation, sample by sample. */
  function Close(b: Buffer, r: nat): (s: Buffer)
    requires Wellformed(b)
    ensures Wellformed(s) && SameShape(b, s)
    ensures forall i, j, c :: 0 <= i < Height(b) && 0 <= j < Width(b) && 0 <= c < Channels(b) ==>
              IsWindowExtreme(Dilate(b, r), Least, r, i, j, c, s[i][j][c])
    ensures Below(b, s) && Below(s, Dilate(b, r))
  {
    ErodeDilateBracket(Dilate(b, r), r);
    CloseAbove(b, r);
    Erode(Dilate(b, r), r)
  }

  /** Pointwise order on buffers of one shape. */
  ghost predicate Below(a: Buffer, b: Buffer)
    requires Wellformed(a) && SameShape(a, b)
  {
    forall i, j, c :: 0 <= i < Height(a) && 0 <= j < Width(a) && 0 <= c < Channels(a) ==> a[i][j][c] <= b[i][j][c]
  }

  /** Erosion never raises a sample and dilation never lowers one. */
  lemma ErodeDilateBracket(b: Buffer, r: nat)
    requires Wellformed(b)
    ensures Below(Erode(b, r), b) && Below(b, Dilate(b, r))
  {
    var h, w := Height(b), Width(b);
    forall i, j, c | 0 <= i < h && 0 <= j < w && 0 <= c < Channels(b)
      ensures Erode(b, r)[i][j][c] <= b[i][j][c] <= Dilate(b, r)[i][j][c]
    {
      assert InWindow(h, w, r, i, j, i, j);
      assert IsWindowExtreme(b, Least, r, i, j, c, Erode(b, r)[i][j][c]);
      assert IsWindowExtreme(b, Greatest, r, i, j, c, Dilate(b, r)[i][j][c]);
    }
  }

  /** Opening never raises a sample: every window around (i, j) that the
      dilation draws from contains (i, j) itself, so its erosion is at most
      the sample at (i, j). */
  lemma OpenBelow(b: Buffer, r: nat)
    requires Wellformed(b)
    ensures Below(Dilate(Erode(b, r), r), b)
  {
    var h, w := Height(b), Width(b);
    var er := Erode(b, r);
    var op := Dilate(er, r);
    forall i, j, c | 0 <= i < h && 0 <= j < w && 0 <= c < Channels(b)
      ensures op[i][j][c] <= b[i][j][c]
    {
      assert IsWindowExtreme(er, Greatest, r, i, j, c, op[i][j][c]);
      var y, x :| InWindow(h, w, r, i, j, y, x) && op[i][j][c] == er[y][x][c];
      assert IsWindowExtreme(b, Least, r, y, x, c, er[y][x][c]);
      assert InWindow(h, w, r, y, x, i, j);
    }
  }

  /** Closing never lowers a sample, by the dual argument. */
  lemma CloseAbove(b: Buffer, r: nat)
    requires Wellformed(b)
    ensures Below(b, Erode(Dilate(b, r), r))
  {
    var h, w := Height(b), Width(b);
    var di := Dilate(b, r);
    var cl := Erode(di, r);
    forall i, j, c | 0 <= i < h && 0 <= j < w && 0 <= c < Channels(b)
      ensures b[i][j][c] <= cl[i][j][c]
    {
      assert IsWindowExtreme(di, Least, r, i, j, c, cl[i][j][c]);
      var y, x :| InWindow(h, w, r, i, j, y, x) && cl[i][j][c] == di[y][x][c];
      assert IsWindowExtreme(b, Greatest, r, y, x, c, di[y][x][c]);
      assert InWindow(h, w, r, y, x, i, j);
    }
  }

  /** A 1 by 1 element (radius 0) changes nothing. */
  lemma RadiusZeroIdentity(b: Buffer)
    requires Wellformed(b)
    ensures Erode(b, 0) == b && Dilate(b, 0) == b
    ensures Open(b, 0) == b && Close(b, 0) == b
  {
    var h, w := Height(b), Width(b);
    forall e: Extreme
      ensures Sweep(b, e, 0) == b
    {
      var s := Sweep(b, e, 0);
      forall i | 0 <= i < h
        ensures s[i] == b[i]
      {
        forall j | 0 <= j < w
          ensures s[i][j] == b[i][j]
        {
          forall c | 0 <= c < Channels(b)
            ensures s[i][j][c] == b[i][j][c]
          {
            assert IsWindowExtreme(b, e, 0, i, j, c, s[i][j][c]);
            var y, x :| InWindow(h, w, 0, i, j, y, x) && s[i][j][c] == b[y][x][c];
          }
        }
      }
    }
  }

  /** Morphology keeps samples within the 8-bit range: every output sample
      is some input sample. */
  lemma MorphologyInRange(b: Buffer, r: nat)
    requires IsImage(b)
    ensures IsImage(Erode(b, r)) && IsImage(Dilate(b, r))
    ensures IsImage(Open(b, r)) && IsImage(Close(b, r))
  {
    forall e: Extreme, b': Buffer | IsImage(b')
      ensures IsImage(Sweep(b', e, r))
    {
      var s := Sweep(b', e, r);
      forall i, j, c | 0 <= i < |s| && 0 <= j < |s[i]| && 0 <= c < |s[i][j]|
        ensures InSampleRange(s[i][j][c])
      {
        assert IsWindowExtreme(b', e, r, i, j, c, s[i][j][c]);
        var y, x :| InWindow(Height(b'), Width(b'), r, i, j, y, x) && s[i][j][c] == b'[y][x][c];
      }
    }
    assert IsImage(Erode(b, r)) && IsImage(Dilate(b, r));
  }
}

=== FILE: photometric.dfy ===
/** The saturating brightness step of `apply_brightness_contrast`
    (python-software/medical-image-processor.py).
 */
module Photometric {
  import opened Buffers

  /** Saturating addition of a non-negative offset to an 8-bit sample, as
      the image library's `add` does: only the upper bound can be crossed. */
  function SaturatingAdd(s: int, d: nat): int {
    if s + d > MaxSample then MaxSample else s + d
  }

  /** Saturating subtraction of a non-negative offset from an 8-bit sample,
      as the image library's `subtract` does: only the lower bound can be
      crossed. */
  function SaturatingSubtract(s: int, d: nat): int {
    if s - d < MinSample then MinSample else s - d
  }

  /** The brightness step of `apply_brightness_contrast` on a single-channel
      buffer: skipped when the slider is 0, a saturating add when positive,
      a saturating subtract of the magnitude when negative. Every sample
      ends up at `Clamp(sample + brightness)`. */
  function Brightness(b: Buffer, brightness: int): (r: Buffer)
    requires SamplesInRange(b)
    ensures |r| == |b|
    ensures forall i :: 0 <= i < |b| ==> |r[i]| == |b[i]|
    ensures forall i, j :: 0 <= i < |b| && 0 <= j < |b[i]| ==> |r[i][j]| == |b[i][j]|
    ensures forall i, j, c :: 0 <= i < |b| && 0 <= j < |b[i]| && 0 <= c < |b[i][j]| ==>
              r[i][j][c] == Clamp(b[i][j][c] + brightness)
    ensures SamplesInRange(r)
  {
    if brightness == 0 then b
    else if brightness > 0 then MapSamples(b, s => SaturatingAdd(s, brightness))
    else MapSamples(b, s => SaturatingSubtract(s, -brightness))
  }

  /** Brightness preserves the order of any two samples of a buffer. */
  lemma BrightnessMonotone(b: Buffer, brightness: int, i: int, j: int, c: int, i': int, j': int, c': int)
    requires SamplesInRange(b)
    requires 0 <= i < |b| && 0 <= j < |b[i]| && 0 <= c < |b[i][j]|
    requires 0 <= i' < |b| && 0 <= j' < |b[i']| && 0 <= c' < |b[i'][j']|
    requires b[i][j][c] <= b[i'][j'][c']
    ensures Brightness(b, brightness)[i][j][c] <= Brightness(b, brightness)[i'][j'][c']
  {
  }

  /** A white buffer stays white under any positive brightness. */
  lemma WhiteSaturates(b: Buffer, brightness: int)
    requires forall i, j, c :: 0 <= i < |b| && 0 <= j < |b[i]| && 0 <= c < |b[i][j]| ==> b[i][j][c] == MaxSample
    requires brightness > 0
    ensures SamplesInRange(b) && Brightness(b, brightness) == b
  {
    assert SamplesInRange(b);
    var r := Brightness(b, brightness);
    forall i | 0 <= i < |b|
      ensures r[i] == b[i]
    {
      forall j | 0 <= j < |b[i]|
        ensures r[i][j] == b[i][j]
      {
      }
    }
  }

  /** A black buffer stays black under any negative brightness. */
  lemma BlackSaturates(b: Buffer, brightness: int)
    requires forall i, j, c :: 0 <= i < |b| && 0 <= j < |b[i]| && 0 <= c < |b[i][j]| ==> b[i][j][c] == MinSample
    requires brightness < 0
    ensures SamplesInRange(b) && Brightness(b, brightness) == b
  {
    assert SamplesInRange(b);
    var r := Brightness(b, brightness);
    forall i | 0 <= i < |b|
      ensures r[i] == b[i]
    {
      forall j | 0 <= j < |b[i]|
        ensures r[i][j] == b[i][j]
      {
      }
    }
  }

  /** Brightening by `d` and then darkening by `d` restores every sample
      that did not saturate on the way up. */
  lemma BrightnessUndo(b: Buffer, d: int, i: int, j: int, c: int)
    requires SamplesInRange(b)
    requires 0 <= i < |b| && 0 <= j < |b[i]| && 0 <= c < |b[i][j]|
    requires InSampleRange(b[i][j][c] + d)
    ensures Brightness(Brightness(b, d), -d)[i][j][c] == b[i][j][c]
  {
    var up := Brightness(b, d);
    assert up[i][j][c] == b[i][j][c] + d;
  }
}

=== FILE: pipeline.dfy ===
/** The processing driver of python-software/medical-image-processor.py:
    the control values, the five stages run by `apply_processing` in their
    fixed order, and the application state that `apply_processing`,
    `reset_image` and `load_image` update.

    Some operations are supplied as a `Library` of functions instead of
    being written out:
    - those whose algorithm lives inside the image library: blurs, Canny,
      the adaptive and Otsu thresholds, watershed, histogram equalisation,
      CLAHE, the colour-to-grey weights, and brightness on colour buffers;
    - those the application spells out in floating-point arithmetic whose
      rounding the model does not follow: contrast scaling, the gamma table
      and unsharp masking;
    - contrast stretching, whose application arithmetic relies on 8-bit
      wrap-around and divides by zero on a flat channel.
    The model fixes which of them runs, on what, and in which order;
    `WellBehaved` states the shape guarantees they give.
 */
module Pipeline {
  import opened Wrappers
  import opened Buffers
  import Photometric
  import Kernels
  import Segmentation
  import Morphology

  datatype FilterMode = NoFilter | GaussianBlur | MedianBlur | BilateralFilter | Sharpening | EdgeDetection

  datatype SegmentationMode = NoSegmentation | GlobalThreshold | AdaptiveThreshold | OtsuThreshold | Watershed

  datatype MorphologyMode = NoMorphology | Erosion | Dilation | Opening | Closing

  datatype EnhancementMode = NoEnhancement | HistogramEqualization | Clahe | ContrastStretching | UnsharpSharpening

  /** The values of the processing widgets, read by the stages. Sliders
      hold integers; `contrast` and `gamma` are the raw slider values
      before their scaling to `contrast / 100 + 1` and `gamma / 100`. */
  datatype Controls = Controls(
    brightness: int,
    contrast: int,
    gamma: int,
    filter: FilterMode,
    filterKernel: int,
    segmentation: SegmentationMode,
    threshold: int,
    morphology: MorphologyMode,
    morphKernel: int,
    enhancement: EnhancementMode)

  /** The slider ranges the widgets allow. */
  predicate ValidControls(c: Controls) {
    && -100 <= c.brightness <= 100
    && -100 <= c.contrast <= 100
    && 1 <= c.gamma <= 500
    && 1 <= c.filterKernel <= 15
    && 0 <= c.threshold <= 255
    && 1 <= c.morphKernel <= 15
  }

  /** The values `reset_controls` puts back. */
  const DefaultControls := Controls(0, 0, 100, NoFilter, 3, NoSegmentation, 127, NoMorphology, 3, NoEnhancement)

  /** Settings under which every stage is skipped. Kernel sizes and the
      threshold play no part. */
  predicate Neutral(c: Controls) {
    && c.brightness == 0
    && c.contrast == 0
    && c.gamma == 100
    && c.filter == NoFilter
    && c.segmentation == NoSegmentation
    && c.morphology == NoMorphology
    && c.enhancement == NoEnhancement
  }

  /** Image-library operations whose internals the model leaves open. */
  datatype Library = Library(
    colorBrightness: (Buffer, int) -> Buffer,
    contrastScale: (Buffer, int) -> Buffer,
    gammaTable: (Buffer, int) -> Buffer,
    gaussianBlur: (Buffer, int) -> Buffer,
    medianBlur: (Buffer, int) -> Buffer,
    bilateralFilter: (Buffer, int) -> Buffer,
    sharpenKernel: Buffer -> Buffer,
    canny: Plane -> Plane,
    luma: Segmentation.Luma,
    adaptiveThreshold: Plane -> Plane,
    otsuThreshold: Plane -> Plane,
    watershed: (Buffer, int) -> Buffer,
    equalizeHist: Buffer -> Buffer,
    clahe: Buffer -> Buffer,
    contrastStretch: Buffer -> Buffer,
    unsharpMask: Buffer -> Buffer)

  /** `r` is an image with the dimensions of `b`. */
  ghost predicate Preserves(b: Buffer, r: Buffer) {
    IsImage(r) && SameShape(b, r)
  }

  /** A non-empty rectangular plane of 8-bit values. */
  ghost predicate IsPlane(p: Plane) {
    |p| > 0 && |p[0]| > 0 && PlaneShaped(p, |p|, |p[0]|) && PlaneInRange(p)
  }

  ghost predicate KeepsShape(f: Buffer -> Buffer) {
    forall b {:trigger f(b)} :: IsImage(b) ==> Preserves(b, f(b))
  }

  ghost predicate KeepsShapeWith(f: (Buffer, int) -> Buffer) {
    forall b, v {:trigger f(b, v)} :: IsImage(b) ==> Preserves(b, f(b, v))
  }

  ghost predicate KeepsPlaneShape(f: Plane -> Plane) {
    forall p {:trigger f(p)} :: IsPlane(p) ==> IsPlane(f(p)) && PlaneShaped(f(p), |p|, |p[0]|)
  }

  /** The shape guarantees of the library: every buffer operation returns
      an image of its input's dimensions, every plane operation a plane of
      its input's dimensions, grey levels of colour pixels are 8-bit, and
      watershed returns a three-channel image of the input's height and
      width (it paints boundaries on a colour copy even of a grey input). */
  ghost predicate WellBehaved(lib: Library) {
    && KeepsShapeWith(lib.colorBrightness)
    && KeepsShapeWith(lib.contrastScale)
    && KeepsShapeWith(lib.gammaTable)
    && KeepsShapeWith(lib.gaussianBlur)
    && KeepsShapeWith(lib.medianBlur)
    && KeepsShapeWith(lib.bilateralFilter)
    && KeepsShape(lib.sharpenKernel)
    && KeepsPlaneShape(lib.canny)
    && KeepsPlaneShape(lib.adaptiveThreshold)
    && KeepsPlaneShape(lib.otsuThreshold)
    && (forall px: Pixel {:trigger lib.luma(px)} :: (forall k :: 0 <= k < |px| ==> InSampleRange(px[k])) ==> InSampleRange(lib.luma(px)))
    && (forall b, t {:trigger lib.watershed(b, t)} :: IsImage(b) ==> IsImage(lib.watershed(b, t)) && Shaped(lib.watershed(b, t), Height(b), Width(b), 3))
    && KeepsShape(lib.equalizeHist)
    && KeepsShape(lib.clahe)
    && KeepsShape(lib.contrastStretch)
    && KeepsShape(lib.unsharpMask)
  }

  lemma GrayIsPlane(b: Buffer, lib: Library)
    requires IsImage(b) && WellBehaved(lib)
    ensures IsPlane(Segmentation.ToGray(b, lib.luma))
    ensures PlaneShaped(Segmentation.ToGray(b, lib.luma), Height(b), Width(b))
  {
    var g := Segmentation.ToGray(b, lib.luma);
    forall i, j | 0 <= i < |g| && 0 <= j < |g[i]|
      ensures InSampleRange(g[i][j])
    {
      if Channels(b) != 1 {
        var px := b[i][j];
        assert forall k :: 0 <= k < |px| ==> InSampleRange(px[k]);
      }
    }
  }

  /** A grey plane computed by a library plane operation, stored back with
      the buffer's channel count. */
  function ViaGray(b: Buffer, f: Plane -> Plane, lib: Library): (r: Buffer)
    requires IsImage(b) && WellBehaved(lib)
    requires KeepsPlaneShape(f)
    ensures Preserves(b, r)
    ensures forall i, j, c :: 0 <= i < Height(b) && 0 <= j < Width(b) && 0 <= c < Channels(b) ==> r[i][j][c] == r[i][j][0]
    ensures IsPlane(f(Segmentation.ToGray(b, lib.luma))) && PlaneShaped(f(Segmentation.ToGray(b, lib.luma)), Height(b), Width(b))
    ensures forall i, j, c :: 0 <= i < Height(b) && 0 <= j < Width(b) && 0 <= c < Channels(b) ==>
              r[i][j][c] == f(Segmentation.ToGray(b, lib.luma))[i][j]
  {
    GrayIsPlane(b, lib);
    var g := Segmentation.ToGray(b, lib.luma);
    var out := f(g);
    Segmentation.FromGrayIsImage(out, Width(b), Channels(b));
    Segmentation.FromGray(out, Width(b), Channels(b))
  }

  /** `apply_brightness_contrast`: brightness (skipped at 0), then contrast
      (skipped when the scale `contrast / 100 + 1` is exactly 1, that is,
      when the slider is 0), then gamma (skipped when `gamma / 100` is
      exactly 1, that is, when the slider is 100). On a single-channel
      buffer the brightness step is the saturating one of `Photometric`. */
  function AdjustBrightnessContrast(b: Buffer, c: Controls, lib: Library): (r: Buffer)
    requires IsImage(b) && WellBehaved(lib)
    ensures Preserves(b, r)
    ensures c.brightness == 0 && c.contrast == 0 && c.gamma == 100 ==> r == b
    ensures Channels(b) == 1 && c.contrast == 0 && c.gamma == 100 ==>
              forall i, j :: 0 <= i < Height(b) && 0 <= j < Width(b) ==> r[i][j][0] == Clamp(b[i][j][0] + c.brightness)
  {
    var bright :=
      if c.brightness == 0 then b
      else if Channels(b) == 1 then Photometric.Brightness(b, c.brightness)
      else lib.colorBrightness(b, c.brightness);
    assert Preserves(b, bright) by {
      if c.brightness != 0 && Channels(b) == 1 {
        assert |bright[0]| == Width(b) && |bright[0][0]| == 1;
      }
    }
    var contrasted := if c.contrast != 0 then lib.contrastScale(bright, c.contrast) else bright;
    if c.gamma != 100 then lib.gammaTable(contrasted, c.gamma) else contrasted
  }

  /** `apply_filters`: the kernel size is made odd first, then the chosen
      filter runs. Edge detection runs Canny on the grey plane and stores
      the edge map with the buffer's channel count. */
  function ApplyFilters(b: Buffer, c: Controls, lib: Library): (r: Buffer)
    requires IsImage(b) && WellBehaved(lib)
    ensures Preserves(b, r)
    ensures c.filter == NoFilter ==> r == b
    ensures c.filter == GaussianBlur ==> r == lib.gaussianBlur(b, Kernels.OddKernel(c.filterKernel))
    ensures c.filter == MedianBlur ==> r == lib.medianBlur(b, Kernels.OddKernel(c.filterKernel))
    ensures c.filter == BilateralFilter ==> r == lib.bilateralFilter(b, Kernels.OddKernel(c.filterKernel))
    ensures c.filter == Sharpening ==> r == lib.sharpenKernel(b)
    ensures c.filter == EdgeDetection ==> r == ViaGray(b, lib.canny, lib)
  {
    var k := Kernels.OddKernel(c.filterKernel);
    match c.filter
    case NoFilter => b
    case GaussianBlur => lib.gaussianBlur(b, k)
    case MedianBlur => lib.medianBlur(b, k)
    case BilateralFilter => lib.bilateralFilter(b, k)
    case Sharpening => lib.sharpenKernel(b)
    case EdgeDetection => ViaGray(b, lib.canny, lib)
  }

  /** `apply_segmentation`. All results but watershed's keep the buffer's
      channel count; watershed always yields three channels. */
  function ApplySegmentation(b: Buffer, c: Controls, lib: Library): (r: Buffer)
    requires IsImage(b) && WellBehaved(lib)
    ensures IsImage(r) && Height(r) == Height(b) && Width(r) == Width(b)
    ensures c.segmentation != Watershed ==> SameShape(b, r)
    ensures c.segmentation == Watershed ==> Channels(r) == 3
    ensures c.segmentation == NoSegmentation ==> r == b
    ensures c.segmentation == GlobalThreshold ==> r == Segmentation.Threshold(b, c.threshold, lib.luma)
    ensures c.segmentation == AdaptiveThreshold ==> r == ViaGray(b, lib.adaptiveThreshold, lib)
    ensures c.segmentation == OtsuThreshold ==> r == ViaGray(b, lib.otsuThreshold, lib)
    ensures c.segmentation == Watershed ==> r == lib.watershed(b, c.threshold)
  {
    match c.segmentation
    case NoSegmentation => b
    case GlobalThreshold =>
      Segmentation.ThresholdIsImage(b, c.threshold, lib.luma);
      Segmentation.Threshold(b, c.threshold, lib.luma)
    case AdaptiveThreshold => ViaGray(b, lib.adaptiveThreshold, lib)
    case OtsuThreshold => ViaGray(b, lib.otsuThreshold, lib)
    case Watershed =>
      var r := lib.watershed(b, c.threshold);
      assert |r[0]| == Width(b) && |r[0][0]| == 3;
      r
  }

  /** Radius of the square element of side `OddKernel(k)`. */
  function Radius(k: nat): nat {
    (Kernels.OddKernel(k) - 1) / 2
  }

  /** `apply_morphology` with its kernel-size correction: erosion,
      dilation, opening or closing with an all-ones square element. */
  function ApplyMorphology(b: Buffer, c: Controls): (r: Buffer)
    requires IsImage(b) && c.morphKernel >= 0
    ensures Preserves(b, r)
    ensures c.morphology == NoMorphology ==> r == b
    ensures c.morphology == Erosion ==> r == Morphology.Erode(b, Radius(c.morphKernel))
    ensures c.morphology == Dilation ==> r == Morphology.Dilate(b, Radius(c.morphKernel))
    ensures c.morphology == Opening ==> r == Morphology.Open(b, Radius(c.morphKernel))
    ensures c.morphology == Closing ==> r == Morphology.Close(b, Radius(c.morphKernel))
  {
    var rad := Radius(c.morphKernel);
    Morphology.MorphologyInRange(b, rad);
    match c.morphology
    case NoMorphology => b
    case Erosion => Morphology.Erode(b, rad)
    case Dilation => Morphology.Dilate(b, rad)
    case Opening => Morphology.Open(b, rad)
    case Closing => Morphology.Close(b, rad)
  }

  /** `apply_enhancement`. */
  function ApplyEnhancement(b: Buffer, c: Controls, lib: Library): (r: Buffer)
    requires IsImage(b) && WellBehaved(lib)
    ensures Preserves(b, r)
    ensures c.enhancement == NoEnhancement ==> r == b
    ensures c.enhancement == HistogramEqualization ==> r == lib.equalizeHist(b)
    ensures c.enhancement == Clahe ==> r == lib.clahe(b)
    ensures c.enhancement == ContrastStretching ==> r == lib.contrastStretch(b)
    ensures c.enhancement == UnsharpSharpening ==> r == lib.unsharpMask(b)
  {
    match c.enhancement
    case NoEnhancement => b
    case HistogramEqualization => lib.equalizeHist(b)
    case Clahe => lib.clahe(b)
    case ContrastStretching => lib.contrastStretch(b)
    case UnsharpSharpening => lib.unsharpMask(b)
  }

  /** The body of `apply_processing`: a copy of the original run through
      the five stages in their fixed order. */
  function Process(original: Buffer, c: Controls, lib: Library): (r: Buffer)
    requires IsImage(original) && ValidControls(c) && WellBehaved(lib)
    ensures IsImage(r) && Height(r) == Height(original) && Width(r) == Width(original)
    ensures c.segmentation != Watershed ==> Channels(r) == Channels(original)
    ensures c.segmentation == Watershed ==> Channels(r) == 3
  {
    var adjusted := AdjustBrightnessContrast(original, c, lib);
    var filtered := ApplyFilters(adjusted, c, lib);
    var segmented := ApplySegmentation(filtered, c, lib);
    var shaped := ApplyMorphology(segmented, c);
    ApplyEnhancement(shaped, c, lib)
  }

  /** With every stage at its neutral setting the pipeline returns the
      original unchanged. */
  lemma NeutralIsIdentity(original: Buffer, c: Controls, lib: Library)
    requires IsImage(original) && ValidControls(c) && WellBehaved(lib)
    requires Neutral(c)
    ensures Process(original, c, lib) == original
  {
  }

  /** Requesting an even filter kernel size `2m` gives exactly the result
      of requesting `2m + 1`. */
  lemma EvenFilterKernelMatchesNextOdd(original: Buffer, c: Controls, lib: Library, m: int)
    requires IsImage(original) && WellBehaved(lib)
    requires ValidControls(c.(filterKernel := 2 * m)) && ValidControls(c.(filterKernel := 2 * m + 1))
    ensures Process(original, c.(filterKernel := 2 * m), lib) == Process(original, c.(filterKernel := 2 * m + 1), lib)
  {
    var even, odd := c.(filterKernel := 2 * m), c.(filterKernel := 2 * m + 1);
    Kernels.OddKernelPairs(m);
    var adjusted := AdjustBrightnessContrast(original, even, lib);
    assert adjusted == AdjustBrightnessContrast(original, odd, lib);
    var filtered := ApplyFilters(adjusted, even, lib);
    assert filtered == ApplyFilters(adjusted, odd, lib);
    var segmented := ApplySegmentation(filtered, even, lib);
    assert segmented == ApplySegmentation(filtered, odd, lib);
    var shaped := ApplyMorphology(segmented, even);
    assert shaped == ApplyMorphology(segmented, odd);
  }

  /** Requesting an even morphology kernel size `2m` gives exactly the
      result of requesting `2m + 1`. */
  lemma EvenMorphKernelMatchesNextOdd(original: Buffer, c: Controls, lib: Library, m: int)
    requires IsImage(original) && WellBehaved(lib)
    requires ValidControls(c.(morphKernel := 2 * m)) && ValidControls(c.(morphKernel := 2 * m + 1))
    ensures Process(original, c.(morphKernel := 2 * m), lib) == Process(original, c.(morphKernel := 2 * m + 1), lib)
  {
    var even, odd := c.(morphKernel := 2 * m), c.(morphKernel := 2 * m + 1);
    Kernels.OddKernelPairs(m);
    var adjusted := AdjustBrightnessContrast(original, even, lib);
    assert adjusted == AdjustBrightnessContrast(original, odd, lib);
    var filtered := ApplyFilters(adjusted, even, lib);
    assert filtered == ApplyFilters(adjusted, odd, lib);
    var segmented := ApplySegmentation(filtered, even, lib);
    assert segmented == ApplySegmentation(filtered, odd, lib);
    assert Radius(even.morphKernel) == Radius(odd.morphKernel);
    var shaped := ApplyMorphology(segmented, even);
    assert shaped == ApplyMorphology(segmented, odd);
  }

  /** With only the "Threshold" segmentation active, the pipeline output
      is the binary image of the original: every sample is 0 or 255, and it
      is 255 exactly where the original's grey level exceeds the threshold. */
  lemma ThresholdOnlyIsBinary(original: Buffer, c: Controls, lib: Library)
    requires IsImage(original) && ValidControls(c) && WellBehaved(lib)
    requires Neutral(c.(segmentation := NoSegmentation)) && c.segmentation == GlobalThreshold
    ensures forall i, j, k :: 0 <= i < Height(original) && 0 <= j < Width(original) && 0 <= k < Channels(original) ==>
              (Process(original, c, lib)[i][j][k] == MinSample || Process(original, c, lib)[i][j][k] == MaxSample)
    ensures forall i, j, k :: 0 <= i < Height(original) && 0 <= j < Width(original) && 0 <= k < Channels(original) ==>
              (Process(original, c, lib)[i][j][k] == MaxSample <==> Segmentation.GrayAt(original, lib.luma, i, j) > c.threshold)
  {
    var adjusted := AdjustBrightnessContrast(original, c, lib);
    assert adjusted == original;
    var filtered := ApplyFilters(adjusted, c, lib);
    assert filtered == original;
    var segmented := ApplySegmentation(filtered, c, lib);
    assert segmented == Segmentation.Threshold(original, c.threshold, lib.luma);
    var shaped := ApplyMorphology(segmented, c);
    assert shaped == segmented;
    assert Process(original, c, lib) == ApplyEnhancement(shaped, c, lib) == segmented;
  }

  /** Brightness runs before segmentation: on a single-channel image with
      neutral contrast and gamma, no filter and no morphology, "Threshold"
      sees the brightened samples, so a sample ends up white exactly when
      the brightened original exceeds the threshold, and black otherwise. */
  lemma BrightnessThenThreshold(original: Buffer, c: Controls, lib: Library)
    requires IsImage(original) && ValidControls(c) && WellBehaved(lib)
    requires Channels(original) == 1
    requires c.contrast == 0 && c.gamma == 100 && c.filter == NoFilter
    requires c.segmentation == GlobalThreshold && c.morphology == NoMorphology && c.enhancement == NoEnhancement
    ensures Shaped(Process(original, c, lib), Height(original), Width(original), 1)
    ensures forall i, j :: 0 <= i < Height(original) && 0 <= j < Width(original) ==>
              (Process(original, c, lib)[i][j][0] == MinSample || Process(original, c, lib)[i][j][0] == MaxSample)
    ensures forall i, j :: 0 <= i < Height(original) && 0 <= j < Width(original) ==>
              (Process(original, c, lib)[i][j][0] == MaxSample <==> Clamp(original[i][j][0] + c.brightness) > c.threshold)
  {
    var adjusted := AdjustBrightnessContrast(original, c, lib);
    var filtered := ApplyFilters(adjusted, c, lib);
    assert filtered == adjusted;
    var segmented := ApplySegmentation(filtered, c, lib);
    assert segmented == Segmentation.Threshold(adjusted, c.threshold, lib.luma);
    var shaped := ApplyMorphology(segmented, c);
    assert Process(original, c, lib) == ApplyEnhancement(shaped, c, lib) == segmented;
    forall i, j | 0 <= i < Height(original) && 0 <= j < Width(original)
      ensures segmented[i][j][0] == MaxSample <==> Clamp(original[i][j][0] + c.brightness) > c.threshold
    {
      assert Segmentation.GrayAt(adjusted, lib.luma, i, j) == adjusted[i][j][0] == Clamp(original[i][j][0] + c.brightness);
    }
  }

  /** The filter runs before segmentation: with only "Edge Detection" and
      "Threshold" active, the threshold sees the edge map, so every sample
      is 0 or 255, and 255 exactly where the grey level of the edge map
      exceeds the threshold. */
  lemma EdgesThenThreshold(original: Buffer, c: Controls, lib: Library)
    requires IsImage(original) && ValidControls(c) && WellBehaved(lib)
    requires Neutral(c.(filter := NoFilter, segmentation := NoSegmentation))
    requires c.filter == EdgeDetection && c.segmentation == GlobalThreshold
    ensures SameShape(original, Process(original, c, lib))
    ensures forall i, j, k :: 0 <= i < Height(original) && 0 <= j < Width(original) && 0 <= k < Channels(original) ==>
              (Process(original, c, lib)[i][j][k] == MinSample || Process(original, c, lib)[i][j][k] == MaxSample)
    ensures forall i, j, k :: 0 <= i < Height(original) && 0 <= j < Width(original) && 0 <= k < Channels(original) ==>
              (Process(original, c, lib)[i][j][k] == MaxSample <==>
                 Segmentation.GrayAt(ViaGray(original, lib.canny, lib), lib.luma, i, j) > c.threshold)
  {
    var adjusted := AdjustBrightnessContrast(original, c, lib);
    assert adjusted == original;
    var edges := ApplyFilters(adjusted, c, lib);
    assert edges == ViaGray(original, lib.canny, lib);
    var segmented := ApplySegmentation(edges, c, lib);
    assert segmented == Segmentation.Threshold(edges, c.threshold, lib.luma);
    var shaped := ApplyMorphology(segmented, c);
    assert Process(original, c, lib) == ApplyEnhancement(shaped, c, lib) == segmented;
  }

  /** Morphology runs before enhancement: with only "Erosion" and
      histogram equalisation active, the pipeline equalises the eroded
      original. */
  lemma ErodeThenEqualize(original: Buffer, c: Controls, lib: Library)
    requires IsImage(original) && ValidControls(c) && WellBehaved(lib)
    requires Neutral(c.(morphology := NoMorphology, enhancement := NoEnhancement))
    requires c.morphology == Erosion && c.enhancement == HistogramEqualization
    ensures Process(original, c, lib) == lib.equalizeHist(Morphology.Erode(original, Radius(c.morphKernel)))
  {
    var adjusted := AdjustBrightnessContrast(original, c, lib);
    assert adjusted == original;
    var filtered := ApplyFilters(adjusted, c, lib);
    assert filtered == original;
    var segmented := ApplySegmentation(filtered, c, lib);
    assert segmented == original;
    var shaped := ApplyMorphology(segmented, c);
    assert shaped == Morphology.Erode(original, Radius(c.morphKernel));
  }

  /** With only "Opening" active, the pipeline never raises a sample of the
      original; with only "Closing" active it never lowers one. */
  lemma OpeningOnlyBelow(original: Buffer, c: Controls, lib: Library)
    requires IsImage(original) && ValidControls(c) && WellBehaved(lib)
    requires Neutral(c.(morphology := NoMorphology)) && (c.morphology == Opening || c.morphology == Closing)
    ensures SameShape(original, Process(original, c, lib))
    ensures c.morphology == Opening ==> Morphology.Below(Process(original, c, lib), original)
    ensures c.morphology == Closing ==> Morphology.Below(original, Process(original, c, lib))
  {
    var adjusted := AdjustBrightnessContrast(original, c, lib);
    assert adjusted == original;
    var filtered := ApplyFilters(adjusted, c, lib);
    assert filtered == original;
    var segmented := ApplySegmentation(filtered, c, lib);
    assert segmented == original;
    var shaped := ApplyMorphology(segmented, c);
    assert Process(original, c, lib) == ApplyEnhancement(shaped, c, lib) == shaped;
  }

  /** The application state: the loaded image, the processed image shown
      beside it, the widget values, and the last selected region. `None`
      stands for Python's `None` before anything is loaded or selected. */
  datatype Session = Session(original: Option<Buffer>, processed: Option<Buffer>, controls: Controls, roi: Option<Buffer>)

  /** Once an image is loaded both buffers are images, and the widgets hold
      values in their ranges. */
  ghost predicate ValidSession(s: Session) {
    && (s.original.Some? ==> IsImage(s.original.value) && s.processed.Some? && IsImage(s.processed.value))
    && ValidControls(s.controls)
  }

  /** The state after `load_image` succeeds with `image`: the processed
      buffer is a copy of it, the widgets are reset, the old region is
      kept. */
  function Load(s: Session, image: Buffer): (r: Session)
    requires IsImage(image)
    ensures ValidSession(r)
    ensures r.original == Some(image) && r.processed == Some(image)
    ensures r.controls == DefaultControls && r.roi == s.roi
  {
    Session(Some(image), Some(image), DefaultControls, s.roi)
  }

  /** `load_image` when the image file cannot be read: the original
      becomes `None`, and the processed buffer, widgets and region keep
      what they held. Processing and reset are then no-ops. */
  function ReadFailed(s: Session): (r: Session)
    requires ValidSession(s)
    ensures ValidSession(r)
    ensures r.original.None?
    ensures r.processed == s.processed && r.controls == s.controls && r.roi == s.roi
  {
    s.(original := None)
  }

  /** `apply_processing`: nothing happens without an image; otherwise the
      processed buffer is replaced by the pipeline's result on the original,
      whatever it held before. The original is never changed. */
  function ApplyProcessing(s: Session, lib: Library): (r: Session)
    requires ValidSession(s) && WellBehaved(lib)
    ensures ValidSession(r)
    ensures r.original == s.original && r.controls == s.controls && r.roi == s.roi
    ensures s.original.None? ==> r == s
    ensures s.original.Some? ==> r.processed == Some(Process(s.original.value, s.controls, lib))
  {
    match s.original
    case None => s
    case Some(o) => s.(processed := Some(Process(o, s.controls, lib)))
  }

  /** `reset_image`: nothing happens without an image; otherwise the
      processed buffer becomes an exact copy of the original and the widgets
      go back to their defaults. */
  function ResetImage(s: Session): (r: Session)
    requires ValidSession(s)
    ensures ValidSession(r)
    ensures r.original == s.original && r.roi == s.roi
    ensures s.original.None? ==> r == s
    ensures s.original.Some? ==> r.processed == s.original && r.controls == DefaultControls
  {
    match s.original
    case None => s
    case Some(o) => s.(processed := Some(o), controls := DefaultControls)
  }

  /** Applying twice is applying once: each application starts again from
      the original, so nothing from an earlier run carries over. */
  lemma ApplyIdempotent(s: Session, lib: Library)
    requires ValidSession(s) && WellBehaved(lib)
    ensures ApplyProcessing(ApplyProcessing(s, lib), lib) == ApplyProcessing(s, lib)
  {
  }

  /** What a previous application left in the processed buffer plays no
      part in the next one. */
  lemma ApplyIgnoresProcessed(s: Session, t: Session, lib: Library)
    requires ValidSession(s) && ValidSession(t) && WellBehaved(lib)
    requires s.original.Some?
    requires s.original == t.original && s.controls == t.controls && s.roi == t.roi
    ensures ApplyProcessing(s, lib) == ApplyProcessing(t, lib)
  {
  }

  /** After a reset the default widget values are neutral, so applying
      straight away reproduces the original exactly. */
  lemma ResetThenApplyIsOriginal(s: Session, lib: Library)
    requires ValidSession(s) && WellBehaved(lib)
    requires s.original.Some?
    ensures ApplyProcessing(ResetImage(s), lib).processed == s.original
  {
    NeutralIsIdentity(s.original.value, DefaultControls, lib);
  }
}

=== FILE: region.dfy ===
/** Region selection and the region features of
    python-software/medical-image-processor.py: the crop taken by
    `select_roi`, and the area and mean intensity computed by
    `extract_features` from a binary foreground mask of the region.

    The mask is an input: the source obtains it from Otsu's threshold on
    the region's grey plane, which is not part of this model.
 */
module Region {
  import opened Wrappers
  import opened Buffers
  import Segmentation
  import Pipeline

  /** A selection rectangle as `selectROI` reports it: top-left corner,
      width and height. A cancelled selection has zero width and height. */
  datatype Rect = Rect(x: nat, y: nat, width: nat, height: nat)

  /** The rectangle lies inside the buffer. */
  predicate Inside(r: Rect, b: Buffer) {
    r.x + r.width <= Width(b) && r.y + r.height <= Height(b)
  }

  /** Array slicing `s[lo:lo + n]` for non-negative bounds: the part of
      positions lo .. lo + n - 1 that exists. */
  function Slice<T>(s: seq<T>, lo: nat, n: nat): (r: seq<T>)
    ensures |r| <= n
    ensures lo + n <= |s| ==> |r| == n
    ensures lo < |s| < lo + n ==> lo + |r| == |s|
    ensures |s| <= lo ==> |r| == 0
    ensures forall k :: 0 <= k < |r| ==> lo + k < |s| && r[k] == s[lo + k]
  {
    if lo >= |s| then [] else if lo + n > |s| then s[lo..] else s[lo..lo + n]
  }

  /** Number of positions `lo .. lo + n - 1` that exist in a sequence of
      length `len`: the length of `s[lo:lo + n]`. */
  function Clipped(len: nat, lo: nat, n: nat): nat {
    if lo >= len then 0 else if lo + n > len then len - lo else n
  }

  /** The region copied out of `b`: rows `y .. y + height - 1`, columns
      `x .. x + width - 1`, clipped to the buffer like array slicing is.
      Cell (i, j) of the crop is cell (y + i, x + j) of `b`; inside the
      buffer the crop is exactly `height` by `width`. */
  function Crop(b: Buffer, r: Rect): (c: Buffer)
    ensures |c| == Clipped(|b|, r.y, r.height) <= r.height
    ensures forall i :: 0 <= i < |c| ==> r.y + i < |b| && |c[i]| == Clipped(|b[r.y + i]|, r.x, r.width) <= r.width
    ensures forall i, j :: 0 <= i < |c| && 0 <= j < |c[i]| ==> r.x + j < |b[r.y + i]| && c[i][j] == b[r.y + i][r.x + j]
    ensures Wellformed(b) && Inside(r, b) ==> Shaped(c, r.height, r.width, Channels(b))
  {
    var rows := Slice(b, r.y, r.height);
    seq(|rows|, i requires 0 <= i < |rows| => Slice(rows[i], r.x, r.width))
  }

  /** A crop of an image by a non-empty rectangle inside it is an image
      with the rectangle's dimensions. */
  lemma CropIsImage(b: Buffer, r: Rect)
    requires IsImage(b) && Inside(r, b) && r.width > 0 && r.height > 0
    ensures IsImage(Crop(b, r))
    ensures Height(Crop(b, r)) == r.height && Width(Crop(b, r)) == r.width && Channels(Crop(b, r)) == Channels(b)
  {
    var c := Crop(b, r);
    assert |c[0]| == r.width && |c[0][0]| == Channels(b);
    forall i, j, k | 0 <= i < |c| && 0 <= j < |c[i]| && 0 <= k < |c[i][j]|
      ensures InSampleRange(c[i][j][k])
    {
      assert c[i][j] == b[r.y + i][r.x + j];
    }
  }

  /** `select_roi`: with no processed image nothing happens; a selection
      of positive width and height replaces the region with its crop of the
      processed buffer; any other selection leaves the state as it was.
      Neither buffer is touched. */
  function SelectRoi(s: Pipeline.Session, r: Rect): (t: Pipeline.Session)
    ensures t.original == s.original && t.processed == s.processed && t.controls == s.controls
    ensures s.processed.None? || r.width == 0 || r.height == 0 ==> t == s
    ensures s.processed.Some? && r.width > 0 && r.height > 0 ==> t.roi == Some(Crop(s.processed.value, r))
  {
    if s.processed.None? then s
    else if r.width > 0 && r.height > 0 then s.(roi := Some(Crop(s.processed.value, r)))
    else s
  }

  /** 1 for a foreground (non-zero) mask value, 0 otherwise. */
  function Indicator(v: int): nat {
    if v > 0 then 1 else 0
  }

  /** Number of foreground cells in one mask row. */
  function RowArea(row: seq<int>): (n: nat)
    ensures n <= |row|
  {
    if |row| == 0 then 0 else Indicator(row[0]) + RowArea(row[1..])
  }

  /** Number of foreground cells in a mask: the "Area (pixels)" feature. */
  function Area(mask: Plane): nat {
    if |mask| == 0 then 0 else RowArea(mask[0]) + Area(mask[1..])
  }

  /** The foreground cells of an `h` by `w` mask, as coordinates. */
  ghost function Foreground(mask: Plane, h: nat, w: nat): set<(int, int)>
    requires PlaneShaped(mask, h, w)
  {
    set i, j | 0 <= i < h && 0 <= j < w && mask[i][j] > 0 :: (i, j)
  }

  /** The foreground cells of row `i` among its first `w` columns. */
  ghost function RowForeground(mask: Plane, i: int, w: nat): set<(int, int)>
    requires 0 <= i < |mask| && w <= |mask[i]|
  {
    set j | 0 <= j < w && mask[i][j] > 0 :: (i, j)
  }

  lemma {:induction false} RowAreaAppend(a: seq<int>, b: seq<int>)
    ensures RowArea(a + b) == RowArea(a) + RowArea(b)
  {
    if |a| > 0 {
      assert (a + b)[1..] == a[1..] + b;
      RowAreaAppend(a[1..], b);
    } else {
      assert a + b == b;
    }
  }

  lemma {:induction false} AreaAppend(a: Plane, b: Plane)
    ensures Area(a + b) == Area(a) + Area(b)
  {
    if |a| > 0 {
      assert (a + b)[1..] == a[1..] + b;
      AreaAppend(a[1..], b);
    } else {
      assert a + b == b;
    }
  }

  /** Row `i` has as many foreground cells among its first `w` columns as
      `RowArea` counts there. */
  lemma {:induction false} RowForegroundCount(mask: Plane, i: int, w: nat)
    requires 0 <= i < |mask| && w <= |mask[i]|
    ensures |RowForeground(mask, i, w)| == RowArea(mask[i][..w])
  {
    if w > 0 {
      RowForegroundCount(mask, i, w - 1);
      var row := mask[i];
      assert row[..w] == row[..w - 1] + [row[w - 1]];
      RowAreaAppend(row[..w - 1], [row[w - 1]]);
      assert RowArea([row[w - 1]]) == Indicator(row[w - 1]) by {
        assert [row[w - 1]][1..] == [];
      }
      if row[w - 1] > 0 {
        assert RowForeground(mask, i, w) == RowForeground(mask, i, w - 1) + {(i, w - 1)};
        assert (i, w - 1) !in RowForeground(mask, i, w - 1);
      } else {
        assert RowForeground(mask, i, w) == RowForeground(mask, i, w - 1);
      }
    } else {
      assert RowForeground(mask, i, w) == {};
    }
  }

  /** The first `n` rows of an `h` by `w` mask have as many foreground
      cells as `Area` counts in them. */
  lemma {:induction false} ForegroundPrefixCount(mask: Plane, h: nat, w: nat, n: nat)
    requires PlaneShaped(mask, h, w) && n <= h
    ensures |Foreground(mask[..n], n, w)| == Area(mask[..n])
  {
    if n > 0 {
      var top := mask[..n - 1];
      assert mask[..n] == top + [mask[n - 1]];
      ForegroundPrefixCount(mask, h, w, n - 1);
      AreaAppend(top, [mask[n - 1]]);
      assert Area([mask[n - 1]]) == RowArea(mask[n - 1]) by {
        assert [mask[n - 1]][1..] == [];
      }
      RowForegroundCount(mask, n - 1, w);
      assert mask[n - 1][..w] == mask[n - 1];
      var upper := Foreground(top, n - 1, w);
      var last := RowForeground(mask, n - 1, w);
      assert Foreground(mask[..n], n, w) == upper + last;
      assert upper * last == {};
    } else {
      assert Foreground(mask[..n], n, w) == {};
    }
  }

  /** `Area` counts the foreground cells: it is the number of coordinates
      (i, j) whose mask value is positive, as `np.sum(binary > 0)` is. */
  lemma AreaIsForegroundCount(mask: Plane, h: nat, w: nat)
    requires PlaneShaped(mask, h, w)
    ensures Area(mask) == |Foreground(mask, h, w)|
  {
    ForegroundPrefixCount(mask, h, w, h);
    assert mask[..h] == mask;
  }

  lemma {:induction false} RowAreaZero(row: seq<int>)
    ensures RowArea(row) == 0 <==> forall j :: 0 <= j < |row| ==> row[j] <= 0
  {
    if |row| > 0 {
      RowAreaZero(row[1..]);
      assert forall j :: 1 <= j < |row| ==> row[j] == row[1..][j - 1];
    }
  }

  lemma {:induction false} RowAreaFull(row: seq<int>)
    ensures RowArea(row) == |row| <==> forall j :: 0 <= j < |row| ==> row[j] > 0
  {
    if |row| > 0 {
      RowAreaFull(row[1..]);
      assert forall j :: 1 <= j < |row| ==> row[j] == row[1..][j - 1];
    }
  }

  /** The area of an `h` by `w` mask is at most `h * w`; it is 0 exactly
      when no cell is foreground and `h * w` exactly when every cell is. */
  lemma {:induction false} AreaBounds(mask: Plane, h: nat, w: nat)
    requires PlaneShaped(mask, h, w)
    ensures Area(mask) <= h * w
    ensures Area(mask) == 0 <==> forall i, j :: 0 <= i < h && 0 <= j < w ==> mask[i][j] <= 0
    ensures Area(mask) == h * w <==> forall i, j :: 0 <= i < h && 0 <= j < w ==> mask[i][j] > 0
  {
    if h > 0 {
      var rest := mask[1..];
      assert PlaneShaped(rest, h - 1, w);
      AreaBounds(rest, h - 1, w);
      RowAreaZero(mask[0]);
      RowAreaFull(mask[0]);
      assert forall i :: 1 <= i < h ==> mask[i] == rest[i - 1];
      assert h * w == w + (h - 1) * w;
    }
  }

  /** The grey levels under the foreground of `mask`, in row-major order:
      the array `gray_roi[mask]`. */
  function RowMasked(g: seq<int>, m: seq<int>): (v: seq<int>)
    requires |g| == |m|
  {
    if |g| == 0 then [] else (if m[0] > 0 then [g[0]] else []) + RowMasked(g[1..], m[1..])
  }

  function Masked(gray: Plane, mask: Plane): (v: seq<int>)
    requires |gray| == |mask| && forall i :: 0 <= i < |gray| ==> |gray[i]| == |mask[i]|
  {
    if |gray| == 0 then [] else RowMasked(gray[0], mask[0]) + Masked(gray[1..], mask[1..])
  }

  lemma {:induction false} RowMaskedMembers(g: seq<int>, m: seq<int>)
    requires |g| == |m|
    ensures |RowMasked(g, m)| == RowArea(m)
    ensures forall v :: v in RowMasked(g, m) <==> exists j :: 0 <= j < |g| && m[j] > 0 && g[j] == v
  {
    if |g| > 0 {
      RowMaskedMembers(g[1..], m[1..]);
      forall v
        ensures v in RowMasked(g, m) <==> exists j :: 0 <= j < |g| && m[j] > 0 && g[j] == v
      {
        if v in RowMasked(g[1..], m[1..]) {
          var j :| 0 <= j < |g[1..]| && m[1..][j] > 0 && g[1..][j] == v;
          assert m[j + 1] > 0 && g[j + 1] == v;
        }
        if exists j :: 0 <= j < |g| && m[j] > 0 && g[j] == v {
          var j :| 0 <= j < |g| && m[j] > 0 && g[j] == v;
          if j > 0 {
            assert m[1..][j - 1] > 0 && g[1..][j - 1] == v;
          }
        }
      }
    }
  }

  /** The masked values are exactly the grey levels of foreground cells,
      one per foreground cell. */
  lemma {:induction false} MaskedMembers(gray: Plane, mask: Plane)
    requires |gray| == |mask| && forall i :: 0 <= i < |gray| ==> |gray[i]| == |mask[i]|
    ensures |Masked(gray, mask)| == Area(mask)
    ensures forall v :: v in Masked(gray, mask) <==>
              exists i, j :: 0 <= i < |gray| && 0 <= j < |gray[i]| && mask[i][j] > 0 && gray[i][j] == v
  {
    if |gray| > 0 {
      var g', m' := gray[1..], mask[1..];
      MaskedMembers(g', m');
      RowMaskedMembers(gray[0], mask[0]);
      forall v
        ensures v in Masked(gray, mask) <==>
                exists i, j :: 0 <= i < |gray| && 0 <= j < |gray[i]| && mask[i][j] > 0 && gray[i][j] == v
      {
        if v in Masked(g', m') {
          var i, j :| 0 <= i < |g'| && 0 <= j < |g'[i]| && m'[i][j] > 0 && g'[i][j] == v;
          assert mask[i + 1][j] > 0 && gray[i + 1][j] == v;
        }
        if v in RowMasked(gray[0], mask[0]) {
          var j :| 0 <= j < |gray[0]| && mask[0][j] > 0 && gray[0][j] == v;
          assert mask[0][j] > 0;
        }
        if exists i, j :: 0 <= i < |gray| && 0 <= j < |gray[i]| && mask[i][j] > 0 && gray[i][j] == v {
          var i, j :| 0 <= i < |gray| && 0 <= j < |gray[i]| && mask[i][j] > 0 && gray[i][j] == v;
          if i > 0 {
            assert m'[i - 1][j] > 0 && g'[i - 1][j] == v;
          }
        }
      }
    }
  }

  function Sum(v: seq<int>): int {
    if |v| == 0 then 0 else v[0] + Sum(v[1..])
  }

  lemma {:induction false} SumBounds(v: seq<int>, lo: int, hi: int)
    requires forall k :: 0 <= k < |v| ==> lo <= v[k] <= hi
    ensures lo * |v| <= Sum(v) <= hi * |v|
  {
    if |v| > 0 {
      SumBounds(v[1..], lo, hi);
      assert lo * |v| == lo + lo * (|v| - 1);
      assert hi * |v| == hi + hi * (|v| - 1);
    }
  }

  /** Arithmetic mean of a non-empty sequence: the number whose multiple
      by the count is the total. */
  function Mean(v: seq<int>): (m: real)
    requires |v| > 0
    ensures m * |v| as real == Sum(v) as real
  {
    Sum(v) as real / |v| as real
  }

  /** A mean of values that all lie in [lo, hi] lies in [lo, hi]. */
  lemma MeanBounds(v: seq<int>, lo: int, hi: int)
    requires |v| > 0
    requires forall k :: 0 <= k < |v| ==> lo <= v[k] <= hi
    ensures lo as real <= Mean(v) <= hi as real
  {
    SumBounds(v, lo, hi);
    var n, m := |v| as real, Mean(v);
    assert lo as real * n <= m * n <= hi as real * n;
    assert (m - lo as real) * n >= 0.0 && (hi as real - m) * n >= 0.0;
  }

  /** Least and greatest of a non-empty sequence. */
  function SeqMin(v: seq<int>): (m: int)
    requires |v| > 0
    ensures m in v && forall k :: 0 <= k < |v| ==> m <= v[k]
  {
    if |v| == 1 then v[0] else var m := SeqMin(v[1..]); if v[0] <= m then v[0] else m
  }

  function SeqMax(v: seq<int>): (m: int)
    requires |v| > 0
    ensures m in v && forall k :: 0 <= k < |v| ==> m >= v[k]
  {
    if |v| == 1 then v[0] else var m := SeqMax(v[1..]); if v[0] >= m then v[0] else m
  }

  /** Which features the check boxes request. Perimeter and texture are
      outside this model. */
  datatype FeatureRequest = FeatureRequest(area: bool, meanIntensity: bool)

  /** The features computed; an unrequested feature is absent. */
  datatype Features = Features(area: Option<nat>, meanIntensity: Option<real>)

  /** `extract_features` on a region, given the foreground mask of its grey
      plane. The area is the number of foreground cells, at most the
      region's cell count. The mean intensity is 0 when there is no
      foreground; otherwise it is the mean of the grey levels under the
      foreground, and so lies between the least and the greatest of them. */
  function ExtractFeatures(roi: Buffer, mask: Plane, req: FeatureRequest, luma: Segmentation.Luma): (f: Features)
    requires Wellformed(roi) && PlaneShaped(mask, Height(roi), Width(roi))
    ensures f.area.Some? <==> req.area
    ensures f.meanIntensity.Some? <==> req.meanIntensity
    ensures req.area ==> f.area == Some(|Foreground(mask, Height(roi), Width(roi))|)
    ensures req.area ==> f.area.value <= Height(roi) * Width(roi)
    ensures req.area ==> (f.area.value == 0 <==>
              forall i, j :: 0 <= i < Height(roi) && 0 <= j < Width(roi) ==> mask[i][j] <= 0)
    ensures req.area ==> (f.area.value == Height(roi) * Width(roi) <==>
              forall i, j :: 0 <= i < Height(roi) && 0 <= j < Width(roi) ==> mask[i][j] > 0)
    ensures req.meanIntensity && (forall i, j :: 0 <= i < Height(roi) && 0 <= j < Width(roi) ==> mask[i][j] <= 0) ==>
              f.meanIntensity.value == 0.0
    ensures req.meanIntensity && (exists i, j :: 0 <= i < Height(roi) && 0 <= j < Width(roi) && mask[i][j] > 0) ==>
              |Masked(Segmentation.ToGray(roi, luma), mask)| > 0 &&
              f.meanIntensity == Some(Mean(Masked(Segmentation.ToGray(roi, luma), mask)))
    ensures req.meanIntensity && (exists i, j :: 0 <= i < Height(roi) && 0 <= j < Width(roi) && mask[i][j] > 0) ==>
              exists lo, hi :: lo in Masked(Segmentation.ToGray(roi, luma), mask) && hi in Masked(Segmentation.ToGray(roi, luma), mask) &&
                lo as real <= f.meanIntensity.value <= hi as real
  {
    var gray := Segmentation.ToGray(roi, luma);
    var vals := Masked(gray, mask);
    AreaBounds(mask, Height(roi), Width(roi));
    AreaIsForegroundCount(mask, Height(roi), Width(roi));
    MaskedMembers(gray, mask);
    var area := Area(mask);
    var mean :=
      if area > 0 then
        var lo, hi := SeqMin(vals), SeqMax(vals);
        MeanBounds(vals, lo, hi);
        Mean(vals)
      else 0.0;
    Features(if req.area then Some(area) else None, if req.meanIntensity then Some(mean) else None)
  }

  /** `extract_features` on the application state: without a selected
      region nothing is computed. */
  function ExtractSessionFeatures(s: Pipeline.Session, mask: Plane, req: FeatureRequest, luma: Segmentation.Luma): (f: Option<Features>)
    requires s.roi.Some? ==> Wellformed(s.roi.value) && PlaneShaped(mask, Height(s.roi.value), Width(s.roi.value))
    ensures f.Some? <==> s.roi.Some?
    ensures s.roi.Some? ==> f == Some(ExtractFeatures(s.roi.value, mask, req, luma))
  {
    match s.roi
    case None => None
    case Some(roi) => Some(ExtractFeatures(roi, mask, req, luma))
  }
}

=== FILE: segmentation.dfy ===
/** Grey-level conversion, broadcasting a plane back to a channel count, and
    the global threshold branch of `apply_segmentation`
    (python-software/medical-image-processor.py).
 */
module Segmentation {
  import opened Buffers

  /** The colour-to-grey conversion of one blue-green-red pixel. Its weights
      and rounding belong to the image library and stay a parameter. */
  type Luma = Pixel -> int

  /** Grey level of pixel (i, j): the sample itself for a single-channel
      buffer, the library's luma of the pixel otherwise. */
  function GrayAt(b: Buffer, luma: Luma, i: int, j: int): int
    requires Wellformed(b)
    requires 0 <= i < Height(b) && 0 <= j < Width(b)
  {
    if Channels(b) == 1 then b[i][j][0] else luma(b[i][j])
  }

  /** The grey plane a stage works on: a copy for a single-channel buffer,
      the per-pixel conversion for a colour one. */
  function ToGray(b: Buffer, luma: Luma): (g: Plane)
    requires Wellformed(b)
    ensures PlaneShaped(g, Height(b), Width(b))
    ensures forall i, j :: 0 <= i < Height(b) && 0 <= j < Width(b) ==> g[i][j] == GrayAt(b, luma, i, j)
    ensures Channels(b) == 1 && SamplesInRange(b) ==> PlaneInRange(g)
  {
    seq(Height(b), i requires 0 <= i < Height(b) =>
      seq(Width(b), j requires 0 <= j < Width(b) => GrayAt(b, luma, i, j)))
  }

  /** A plane stored back as a buffer of `c` channels, every channel of a
      pixel carrying the plane's value: the grey-to-colour conversion for
      `c == 3`, the plane itself as a two-dimensional image for `c == 1`. */
  function FromGray(p: Plane, w: nat, c: nat): (r: Buffer)
    requires PlaneShaped(p, |p|, w)
    ensures Shaped(r, |p|, w, c)
    ensures forall i, j, k :: 0 <= i < |p| && 0 <= j < w && 0 <= k < c ==> r[i][j][k] == p[i][j]
  {
    seq(|p|, i requires 0 <= i < |p| =>
      seq(w, j requires 0 <= j < w => seq(c, k => p[i][j])))
  }

  /** A buffer built from an in-range plane is an image. */
  lemma FromGrayIsImage(p: Plane, w: nat, c: nat)
    requires PlaneShaped(p, |p|, w) && PlaneInRange(p)
    requires |p| > 0 && w > 0 && (c == 1 || c == 3)
    ensures IsImage(FromGray(p, w, c))
    ensures Height(FromGray(p, w, c)) == |p| && Width(FromGray(p, w, c)) == w && Channels(FromGray(p, w, c)) == c
  {
    var r := FromGray(p, w, c);
    assert |r[0]| == w && |r[0][0]| == c;
  }

  /** `THRESH_BINARY` with maximum 255: the plane keeps its shape, every
      value becomes black or white, and it is white exactly where the input
      is strictly above `t`. */
  function Binarize(p: Plane, t: int): (q: Plane)
    ensures |q| == |p|
    ensures forall i :: 0 <= i < |p| ==> |q[i]| == |p[i]|
    ensures forall i, j :: 0 <= i < |p| && 0 <= j < |p[i]| ==> (q[i][j] == MinSample || q[i][j] == MaxSample)
    ensures forall i, j :: 0 <= i < |p| && 0 <= j < |p[i]| ==> (q[i][j] == MaxSample <==> p[i][j] > t)
  {
    seq(|p|, i requires 0 <= i < |p| =>
      seq(|p[i]|, j requires 0 <= j < |p[i]| => if p[i][j] > t then MaxSample else MinSample))
  }

  /** The "Threshold" branch: binarize the grey plane at `t`, then store
      it with the channel count the buffer had. Every output sample is 0
      or 255, is 255 exactly where the grey level exceeds `t`, and all
      channels of a pixel agree. */
  function Threshold(b: Buffer, t: int, luma: Luma): (r: Buffer)
    requires Wellformed(b)
    ensures Shaped(r, Height(b), Width(b), Channels(b))
    ensures forall i, j, c :: 0 <= i < Height(b) && 0 <= j < Width(b) && 0 <= c < Channels(b) ==>
              (r[i][j][c] == MaxSample || r[i][j][c] == MinSample)
    ensures forall i, j, c :: 0 <= i < Height(b) && 0 <= j < Width(b) && 0 <= c < Channels(b) ==>
              (r[i][j][c] == MaxSample <==> GrayAt(b, luma, i, j) > t)
    ensures forall i, j, c :: 0 <= i < Height(b) && 0 <= j < Width(b) && 0 <= c < Channels(b) ==>
              r[i][j][c] == r[i][j][0]
  {
    FromGray(Binarize(ToGray(b, luma), t), Width(b), Channels(b))
  }

  /** The threshold stage's output is an image with the input's dimensions. */
  lemma ThresholdIsImage(b: Buffer, t: int, luma: Luma)
    requires IsImage(b)
    ensures IsImage(Threshold(b, t, luma)) && SameShape(b, Threshold(b, t, luma))
  {
    var r := Threshold(b, t, luma);
    assert |r[0]| == Width(b) && |r[0][0]| == Channels(b);
  }

  /** On a single-channel buffer, thresholding a thresholded buffer again at
      any level below white changes nothing. */
  lemma ThresholdIdempotent(b: Buffer, t: int, t': int, luma: Luma)
    requires Wellformed(b) && Channels(b) == 1
    requires MinSample <= t' < MaxSample
    ensures Threshold(Threshold(b, t, luma), t', luma) == Threshold(b, t, luma)
  {
    var once := Threshold(b, t, luma);
    var twice := Threshold(once, t', luma);
    assert Height(once) == Height(b) && Width(once) == Width(b) && Channels(once) == 1;
    forall i | 0 <= i < Height(b)
      ensures twice[i] == once[i]
    {
      forall j | 0 <= j < Width(b)
        ensures twice[i][j] == once[i][j]
      {
        assert GrayAt(once, luma, i, j) == once[i][j][0];
      }
    }
  }
}

=== FILE: wrappers.dfy ===
/** An optional value: the model's stand-in for a Python `None` or a Java
    `null` reference. */
module Wrappers {

  datatype Option<+T> = None | Some(value: T)
}
